=== FILE: README.md ===
# Atlas publisher: a Dafny model of the normaliser and the delivery client

The Atlas publisher plugin converts collected metrics into Atlas datapoints
and posts them to an Atlas backend in JSON batches. This project models its
two pure pipelines and proves what they promise.

- **The normaliser** (`atlas/atlas.go`), in module `Atlas`:
  - `toNumber` coerces a metric's dynamic value to a float64.
  - `convertToBaseUnit` scales a value by its unit (`ms`, `k`, `Ki`, ...).
  - `substitute` expands `{var}` templates.
  - `createAtlasTags` builds a variable map from a namespace and copies the
    tags that are not ignored through `substitute`.
  - `toAtlasMetric` and `toAtlasMetrics` turn plugin metrics into Atlas
    datapoints.
  - `filterNot` drops the metrics an exclude pattern matches.
- **The delivery client** (`atlas/client.go`), in module `Client`:
  - `sanitizeString` and `sanitizeMap` clean tags.
  - `NewAtlasClient` builds a client.
  - `publish` posts the input in batches of 10000 datapoints.
  - `filterNumbers` drops NaN and infinite values.
  - `sendToAtlas` builds one request envelope.

The HTTP post is a sink: `Client.Publish` returns the envelopes it would
post, in order.

Supporting modules:
- `Options`: Go's nil pointers and `(value, error)` results.
- `Floats`: float64 as `Finite(real) | NaN | PosInf | NegInf`.
- `Seqs`: order-preserving filters, matching Go loops that `append`
  selected elements.
- `Text`:
  - `strings.Join`;
  - `strings.Replace(·, ·, ·, -1)`;
  - `fmt.Sprintf("%d", ·)`.
- `Dicts`: Go maps.

A Go map is modelled as a list of entries with distinct keys. The list order
stands for Go's iteration order, which Go leaves unspecified, so the model
fixes it. For maps the program receives (the tags, the common tags),
no contract depends on the order of the list. Two further points:
- a sequence of assignments `m[k] = v` is a list of writes;
- a lookup returns the last write of its key (`Dicts.PutAllGet`).

The variable map `createAtlasTags` builds itself has one fixed order in
the model: the order of its assignments. "## Left out" says where this
matters.

`Examples` re-derives the expected outputs of the repository's unit tests.
- `MinCases`, `SanitizeCase`, `ConvertCases`, `SubstituteNoMatch` and
  `ToAtlasMetricNonNumeric` follow by evaluating the definitions.
- `SanitizeMapCase` and `NewAtlasClientCase` also evaluate `SanitizeString`
  and `SanitizeMap` on literal strings, through small helper lemmas.
- The rest instantiate the general lemmas.
- `SubstituteOrderMatters` is not one of the tests. It evaluates `Substitute`
  on the template `{{0}}` in two visiting orders and gets two results.

## Model

| member | source | states |
|---|---|---|
| Client.Min | atlas/client.go:65-71 | the result is at most both arguments and is one of them |
| Client.SanitizeString | atlas/client.go:75-93 | the output has the input's length and lies in `[A-Za-z0-9_.-]`; every allowed character is copied at its position and every other character becomes `_` |
| Client.SanitizeFixedPoints | atlas/client.go:79-90 | a string comes back unchanged exactly when it is already sanitised, so sanitising twice equals sanitising once |
| Client.SanitizedKeysImage | atlas/client.go:98-99 | a key of the sanitised map is exactly the sanitised form of some input key |
| Client.SanitizeMap | atlas/client.go:96-101 | the result's keys are exactly the sanitised input keys, and every key and value in it is sanitised |
| Client.SanitizeMapSpec | atlas/client.go:96-101 | the result's keys are the sanitised input keys; every key and value is sanitised; a key whose sanitised form no other key shares maps to its own sanitised value |
| Client.NewAtlasClient | atlas/client.go:59-61 | the client keeps the uri; its common tags carry the sanitizeMap guarantees: all strings sanitised, keys the sanitised keys, non-clashing keys keep their values |
| Client.SanitizeAllClean | atlas/client.go:135-139 | each copied datapoint keeps its timestamp and value and has sanitised tags |
| Client.FilterNumbers | atlas/client.go:148-156 | the result is no longer than the input and holds exactly the input's finite-valued datapoints; an all-finite input is returned unchanged |
| Client.FilterNumbersConcat | atlas/client.go:150-154 | filtering distributes over concatenation, so kept datapoints keep their order |
| Client.SendToAtlas | atlas/client.go:159-162 | the envelope's tags are the client's common tags and its datapoints are exactly the batch's finite datapoints, in batch order and with their multiplicity: the output of filterNumbers |
| Client.BatchCount | atlas/client.go:131 | the loop `i += 10000` while `i < n` makes `c` passes with `10000c - 10000 < n <= 10000c` |
| Client.BatchCountIsCeiling | atlas/client.go:131 | the number of batches is `ceil(n / 10000)` |
| Client.BatchCountExact | atlas/client.go:131 | the loop stops after exactly BatchCount passes |
| Client.BatchLength | atlas/client.go:132-133 | batch `k` holds `min(10000, n - 10000k)` datapoints before filtering, at least one, and 10000 in every batch but the last |
| Client.AsWrittenBatch | atlas/client.go:133-139 | the batch the loop as written builds has the length of its slice |
| Client.IntendedBatch | atlas/client.go:133-139 | the batch the corrected loop builds has the length of its slice |
| Client.CopyBatchAsWritten | atlas/client.go:133-140 | the inner loop as written, filling slot `j` from `metrics[j]`, yields the sanitised head `metrics[..end-i]` |
| Client.CopyBatch | atlas/client.go:133-140 | the inner loop reading `metrics[i+j]` yields the sanitised slice `metrics[i..end]` |
| Client.EnvelopeAt | atlas/client.go:141 | envelope `k` of the trace is sendToAtlas of batch `k` |
| Client.Publish | atlas/client.go:124-144 | an empty input posts nothing; otherwise exactly `ceil(n / 10000)` envelopes are posted, envelope `k` is sendToAtlas of the loop's batch `k`, and every posted datapoint has sanitised tags and a finite value |
| Client.PublishIntended | atlas/client.go:124-144 | with the copy reading `metrics[i+j]`: the same number of envelopes, and envelope `k` is sendToAtlas of the `k`-th consecutive slice of at most 10000 datapoints |
| Client.IntendedBatchesPrefix | atlas/client.go:131-139 | the first `c` corrected batches, put together, are the sanitised datapoints before index `min(10000c, n)` |
| Client.IntendedBatchesCoverInput | atlas/client.go:131-139 | the corrected batches, put together, are the sanitised input: every datapoint exactly once, in order |
| Client.SingleBatch | atlas/client.go:127-141 | up to 10000 datapoints go out in one batch that holds all of them, sanitised, with the loop as written too |
| Client.FirstBatchAgrees | atlas/client.go:134-139 | the first batch is the same as written and corrected |
| Client.AsWrittenRepeatsHead | atlas/client.go:134-139 | past 10000 datapoints, the loop as written fills batch 1 from the head of the input where the corrected loop reads from index 10000 |
| Client.AsWrittenLosesDatapoints | atlas/client.go:134-139 | with 10001 datapoints the trace as written differs from the corrected one: batch 1 holds datapoint 0 again instead of datapoint 10000 |
| Atlas.Placeholder | atlas/atlas.go:141 | `{k}` is `k` between a `{` and a `}` |
| Atlas.Substitute | atlas/atlas.go:138-145 | a pattern in which no variable's placeholder occurs comes back unchanged |
| Examples.SubstituteOrderMatters | atlas/atlas.go:138-145 | the result depends on the visiting order: `{{0}}` over `0 = x`, `x = VAL` gives `VAL` when `0` comes first and `{x}` when `x` comes first |
| Atlas.SubstituteNoBrace | atlas/atlas.go:138-145 | a pattern without `{` comes back unchanged, whatever the variables |
| Atlas.PlaceholderMismatch | atlas/atlas.go:141-142 | replacing `{k}` never matches inside another variable's placeholder `{j}` |
| Atlas.RenderStep | atlas/atlas.go:140-143 | one pass of the loop fills exactly the holes naming that pass's variable |
| Atlas.RenderNoVars | atlas/atlas.go:139 | with no variables the pattern is the template's text |
| Atlas.SubstituteRenders | atlas/atlas.go:138-145 | when no brace appears in the template's text, variable names or values, substitute fills every hole of a bound variable and keeps every other hole, in any iteration order |
| Atlas.ToNumber | atlas/atlas.go:54-83 | every integer and float variant converts and every other value is an error; floats pass through and integers give finite values |
| Atlas.ToNumberExact | atlas/atlas.go:56-75 | a signed or unsigned integer converts to the mathematically equal value, a finite whole number |
| Atlas.ConvertToBaseUnit | atlas/atlas.go:86-134 | a unit outside the three tables leaves the value unchanged; conversion keeps a value finite exactly when it was finite, and NaN exactly when it was NaN |
| Atlas.ConvertTimeUnits | atlas/atlas.go:88-93 | `ms`, `us` and `ns` divide by 1000, 1000^2 and 1000^3 |
| Atlas.ConvertSmallDecimalPrefixes | atlas/atlas.go:96-103 | `k`, `M`, `G`, `T` multiply by 1000^1 to 1000^4 |
| Atlas.ConvertLargeDecimalPrefixes | atlas/atlas.go:104-111 | `P`, `E`, `Z`, `Y` multiply by 1000^5 to 1000^8 |
| Atlas.ConvertSmallBinaryPrefixes | atlas/atlas.go:114-119 | `Ki`, `Mi`, `Gi` multiply by 1024^1 to 1024^3 |
| Atlas.ConvertMiddleBinaryPrefixes | atlas/atlas.go:120-125 | `Ti`, `Pi`, `Ei` multiply by 1024^4 to 1024^6 |
| Atlas.ConvertLargeBinaryPrefixes | atlas/atlas.go:126-129 | `Zi`, `Yi` multiply by 1024^7 and 1024^8 |
| Atlas.TablesDisjoint | atlas/atlas.go:87-130 | no unit code appears in two of the tables, so each switch case is reached by one table only |
| Atlas.ConvertScalesByTable | atlas/atlas.go:86-134 | every unit multiplies the value by the factor its position in its table gives: `1000^-n`, `1000^n` or `1024^n`; any other unit by 1 |
| Atlas.StaticValuesFilter | atlas/atlas.go:163-167 | the collected static values are the values of the static elements, in order |
| Text.Join | atlas/atlas.go:152 | `strings.Join` of no parts is empty; otherwise the result starts with the first part and its length is the parts' total length plus one separator between each pair |
| Text.IntToString | atlas/atlas.go:158-159 | a decimal numeral is non-empty, starts with `-` exactly for a negative number, and holds only digits and `-` |
| Text.IntToStringInjective | atlas/atlas.go:158-159 | different positions print differently, so positional keys never collide with each other |
| Text.ReplaceAll | atlas/atlas.go:142 | a text in which the pattern does not occur is returned unchanged |
| Text.OccursNeedsHead | atlas/atlas.go:141-142 | a placeholder cannot occur in a text that lacks its first character `{` |
| Dicts.PutAll | atlas/atlas.go:156-168 | after a run of assignments the keys are the old keys plus every key written |
| Dicts.Put | atlas/atlas.go:158-164 | `m[k] = v` adds `k` to the keys and maps it to `v`; every other lookup is unchanged |
| Dicts.LastWriteAppend | atlas/atlas.go:151-169 | of two runs of assignments, the later run's write of a key wins |
| Dicts.PutAllGet | atlas/atlas.go:151-169 | after a run of assignments a key holds its last written value, or its earlier value if no assignment wrote it |
| Atlas.ElementWritesLast | atlas/atlas.go:157-165 | one pass writes `{j}`, `{j-n}` and, for a dynamic element, its name, all with the element's value |
| Atlas.LoopWritesStep | atlas/atlas.go:156-168 | a later pass's write overrides the earlier passes |
| Atlas.LoopWritesDefined | atlas/atlas.go:156-168 | the loop writes a key exactly when some element names it |
| Atlas.LoopWritesLastWriter | atlas/atlas.go:156-168 | a key ends with the value of the last element that writes it |
| Atlas.NamespaceVars | atlas/atlas.go:151-169 | the variable map always binds `namespace` and `namespace_static`, plus every key the loop writes; `namespace_static` holds the dot-joined static values |
| Atlas.NamespaceVarsGet | atlas/atlas.go:151-169 | a variable lookup gives `namespace_static` its joined static values; otherwise the loop's last write wins; otherwise `namespace` is the dotted namespace; otherwise the key is unbound |
| Atlas.NamespaceVarsKeys | atlas/atlas.go:151-169 | the variables are exactly `namespace`, `namespace_static` and the keys some element writes |
| Atlas.NamespaceVarsLastWriter | atlas/atlas.go:156-168 | a key other than `namespace_static` ends with the value of the last element that writes it |
| Atlas.NamespaceVarsDottedName | atlas/atlas.go:151-153 | `{namespace}` is the dot-joined namespace unless a dynamic element is itself called `namespace` |
| Atlas.PositionalVars | atlas/atlas.go:157-159 | `{i}` and `{i-n}` both resolve to element `i` unless a later element writes the same key |
| Atlas.PositionalVarsPlain | atlas/atlas.go:157-164 | when no dynamic name starts with a digit or `-`, no later element can write those keys, so `{i}` and `{i-n}` resolve to element `i` |
| Atlas.DynamicVar | atlas/atlas.go:163-164 | a dynamic element's name resolves to its value unless a later element writes that key (as one of its positional keys or as its own name) or the name is `namespace_static` |
| Atlas.NamespaceVarsBraceFree | atlas/atlas.go:151-169 | over a namespace without braces, no variable name or value holds a brace |
| Atlas.TagWrites | atlas/atlas.go:178-182 | the tag loop writes exactly the input keys that are not ignored |
| Atlas.TagWritesLast | atlas/atlas.go:178-182 | each tag that is not ignored is written once, with its value substituted; ignored and absent tags are not written |
| Atlas.CreateAtlasTagsGet | atlas/atlas.go:173-182 | a kept tag maps to its substituted value; otherwise `name` defaults to `{namespace}`; every other key is absent |
| Atlas.CreateAtlasTags | atlas/atlas.go:149-185 | the Atlas tag keys are `name` plus the input keys that are not ignored |
| Atlas.CreateAtlasTagsDropsIgnored | atlas/atlas.go:41-44 | `unit` and `plugin_running_on` never appear in the output, whatever their values |
| Atlas.CreateAtlasTagsDefaultName | atlas/atlas.go:171-175 | without a `name` tag, and unless a dynamic element is itself called `namespace`, the Atlas name is the dot-joined namespace |
| Atlas.CreateAtlasTagsCopiesPlainTag | atlas/atlas.go:178-182 | a kept tag whose value has no `{` is copied unchanged, so an explicit `name` overrides the default |
| Atlas.CreateAtlasTagsRenders | atlas/atlas.go:178-182 | over a namespace without braces, a kept tag holding a template becomes the template's meaning over the namespace variables |
| Atlas.Timestamp | atlas/atlas.go:199 | the timestamp is congruent to `seconds * 1000` modulo 2^64, and equal to it when the product fits in a uint64 |
| Atlas.TimestampExact | atlas/atlas.go:199 | for a time from 1970 on, the timestamp is the exact millisecond count, a multiple of 1000, and dividing by 1000 gives back the seconds |
| Atlas.TimestampBefore1970 | atlas/atlas.go:199 | for a time before 1970, the int64 product converted to uint64 wraps to `2^64 + 1000 * seconds` |
| Atlas.ToAtlasMetric | atlas/atlas.go:188-206 | the result is nil exactly for a non-numeric value; without a `unit` tag the value is the number itself |
| Atlas.ToAtlasMetricFields | atlas/atlas.go:189-200 | the value is scaled by the factor of the `unit` tag only when the tag is present; the tags are createAtlasTags of the namespace and tags: `name` plus the kept tags, never `unit`; the timestamp is the metric's time converted by Timestamp |
| Atlas.ToAtlasMetrics | atlas/atlas.go:209-218 | the output is no longer than the input |
| Atlas.ToAtlasMetricsMembership | atlas/atlas.go:209-218 | the outputs are exactly the successful conversions of the inputs |
| Atlas.ToAtlasMetricsCount | atlas/atlas.go:209-218 | there is one output per numeric input |
| Atlas.ToAtlasMetricsConcat | atlas/atlas.go:209-218 | outputs keep the input order |
| Atlas.FilterNot | atlas/atlas.go:238-251 | the output is no longer than the input; without an exclude pattern the input is returned; with one, no survivor matches it |
| Atlas.FilterNotKeeps | atlas/atlas.go:238-251 | a metric survives exactly when it is in the input and does not match; survivors keep their order |
| Floats.Times | atlas/atlas.go:96-129 | scaling by a positive factor keeps a value finite exactly when it was finite, and NaN exactly when it was NaN |
| Floats.Over | atlas/atlas.go:88-93 | dividing by `c` is scaling by `1/c` |
| Examples.SubstituteNoMatch | atlas/atlas_test.go:32-33 | `no matches {foo}` with no variables is unchanged |
| Examples.SubstituteRepeated | atlas/atlas_test.go:35-37 | `{foo} multi match {foo}` with `foo=bar` gives `bar multi match bar` |
| Examples.SubstituteSeveral | atlas/atlas_test.go:39-40 | `multi var {foo}.{0}` gives `multi var bar.positional` |
| Examples.CreateAtlasTagsNoTags | atlas/atlas_test.go:44-48 | with no tags, `test.foo` gives only `name = test.foo` |
| Examples.CreateAtlasTagsIgnoresTag | atlas/atlas_test.go:50-60 | a `unit` or `plugin_running_on` tag over `test.foo` leaves only `name = test.foo` |
| Examples.CreateAtlasTagsNameOverride | atlas/atlas_test.go:62-69 | a `name` tag `custom.name` is the only tag and replaces the default |
| Examples.CreateAtlasTagsFromEnd | atlas/atlas_test.go:93-100 | `{-1}.{-2}` over `test.foo` gives the single tag `name = foo.test` |
| Examples.HostVar | atlas/atlas_test.go:102-110 | in `test.<host>.foo` with host `i-12345`, `{host}` is `i-12345` |
| Examples.HostStatic | atlas/atlas_test.go:102-113 | `{namespace_static}` is `test.foo` |
| Examples.HostDotted | atlas/atlas_test.go:102-114 | `{namespace}` is `test.i-12345.foo` |
| Examples.ConvertCases | atlas/atlas_test.go:120-136 | an unknown unit is the identity, `ms` turns 1e10 into 1e7, and `Ki` turns 1 into 1024 |
| Examples.ToAtlasMetricKibi | atlas/atlas_test.go:161-181 | 99 with unit `Ki` becomes 99 * 1024, with the single tag `name = foo` and the timestamp of the metric's time |
| Examples.ToAtlasMetricNonNumeric | atlas/atlas_test.go:183-187 | the string `"99"` gives nil |
| Examples.MinCases | atlas/client_test.go:27-31 | min(1,2) = 1, min(2,1) = 1 and min(1,-2) = -2 |
| Examples.SanitizeCase | atlas/client_test.go:40 | `/foo/${bar}/%*!@` becomes `_foo___bar______` |
| Examples.SanitizeMapCase | atlas/client_test.go:43-46 | `{"a b": "/"}` becomes `{"a_b": "_"}` and the empty map stays empty |
| Examples.NewAtlasClientCase | atlas/client_test.go:48-60 | the common tags `nf.app=foo`, `bar=value with spaces` become `nf.app=foo`, `bar=value_with_spaces` |
| Examples.SendToAtlasNothingFinite | atlas/client_test.go:91-128 | a batch of only NaN and infinities, or an empty one, posts an envelope with no datapoints |
| Examples.SendToAtlasOneMetric | atlas/client_test.go:78-88 | the one finite datapoint `name = bar`, time 0, value 42 is posted unchanged under the common tags |

## Left out

- The HTTP closure of `httpAtlasClient.Publish` (atlas/client.go:105-121) is network I/O. `publish` returns the trace of envelopes instead of calling `doPost`.
- JSON encoding (atlas/client.go:163-166) is not modelled. This covers byte layout, map-key order, number formatting and the error log after a failed marshal. An envelope is a datatype.
- Logging is not modelled, and neither is the error returned by `doPost`, which is only logged.
- `atlasPublisher.Publish`, `Meta`, `GetConfigPolicy` and `handleErr` (atlas/atlas.go:253-308) are left out. They are gob decoding, configuration and framework registration.
- `getExclude` (atlas/atlas.go:222-235) wraps Go's regular-expression compiler and is left out. `Namespace.String()` is also left out, because its format belongs to the snap framework. `filterNot` takes the match as an abstract predicate on the namespace, and `None` stands for a nil pattern.
- `Namespace.IsDynamic` belongs to the snap framework. A namespace element is modelled as a closed sum `Static(value) | Dynamic(name, value)`.
- Atlas.ConvertToBaseUnit: overflow to ±Inf is not modelled. In Go, `convertToBaseUnit("Y", 1e300)` is +Inf, which filterNumbers then drops. The model keeps the value finite and posts it. Finiteness preservation and the NaN/Inf filter therefore differ from Go for results above about 1.8e308 in magnitude.
- Floats.Times: states finiteness preservation for exact real multiplication. float64 multiplication overflows to ±Inf past about 1.8e308.
- Floating point is exact. Rounding in `convertToBaseUnit`, the precision lost converting large integers to float64 in `toNumber`, and `math.Pow` rounding are not modelled.
- Client.SanitizeString: one Dafny character stands for one byte, so the model covers ASCII input only. For a multi-byte UTF-8 character, `for i := range s` visits only the first byte, so the Go copy keeps a zero byte at each continuation byte. The model does not reproduce this.
- Go map iteration order is not modelled. It is fixed as the list order of `Dicts.Dict`. Contracts about the maps the program receives hold for every list order.
- Atlas.CreateAtlasTagsGet: substitutes over the variable map in its fixed assignment order. Go iterates that map in an unspecified order. When the tag's template is not made of plain `{name}` holes, or a namespace value or dynamic name holds a brace, the stated value is only one of Go's possible results. Two examples: over the namespace `[{1}, x]` the tag `{0}` gives `x` in the model, but Go may give `{1}`; over the namespace `[x, <x>=VAL]` the tag `{{0}}` gives `VAL` or `{x}` depending on whether `0` or `x` is visited first (Examples.SubstituteOrderMatters). Atlas.ToAtlasMetric and Atlas.ToAtlasMetricFields inherit this through their tags. Atlas.CreateAtlasTagsRenders states the order-independent result for brace-free namespaces with well-formed templates.
- Atlas.SubstituteRenders: holds only when no brace appears in the template text, the variable names or the values. Otherwise the Go result can depend on the map's iteration order, for example when a value contains another variable's placeholder.
- Client.SanitizeMapSpec: states the value only for a key whose sanitised form no other key shares. When two keys clash, which value survives depends on iteration order.
- Client.NewAtlasClient: the value guarantee for common tags is limited to non-clashing keys, for the same reason.
- Atlas.TimestampExact: covers times up to year 292 million. Beyond that the int64 product overflows, and TimestampBefore1970 states the wrap only for negative times.
- The `createAtlasTags` tests at atlas/atlas_test.go:71-82 (other tags), 84-91 (`{1}.{0}`) and 102-117 (the dynamic namespace) have no example lemma of their own. They follow from CreateAtlasTagsDropsIgnored, CreateAtlasTags, CreateAtlasTagsCopiesPlainTag, PositionalVars, DynamicVar, NamespaceVarsGet and CreateAtlasTagsRenders. For the dynamic namespace the example lemmas derive the three variables the tags use, not the final tag map.
- The `toAtlasMetric` and `toAtlasMetrics` tests without a unit (atlas/atlas_test.go:146-159, 189-207) are covered by ToAtlasMetricFields and ToAtlasMetricsMembership. They have no example lemma. The test reads the clock, and the model takes the time as a parameter.

## Findings

| source | as written | input that shows it | evidently intended | confidence | as-written member | corrected member |
|---|---|---|---|---|---|---|
| atlas/client.go:134-139 | the copy loop ranges over the indices of `metrics[i:end]` but reads `metrics[j]`, so every batch after the first repeats the head of the input | 10001 datapoints with finite values and different timestamps at positions 0 and 10000: the second envelope holds datapoint 0 again instead of datapoint 10000 | read `metrics[i+j]`, so that the batches are consecutive slices covering the input once | not executed | Client.Publish, Client.AsWrittenLosesDatapoints | Client.PublishIntended, Client.IntendedBatchesCoverInput |

=== FILE: atlas.dfy ===
/** The metric normaliser of the Atlas publisher (atlas/atlas.go): numeric
    coercion, unit scaling, `{var}` templates, the tag map built from a
    namespace, and the conversion of plugin metrics into Atlas datapoints. */
module Atlas {
  import opened Options
  import opened Dicts
  import opened Floats
  import opened Seqs
  import opened Text
  import Client

  // ---------------------------------------------------------------------
  // Templates
  // ---------------------------------------------------------------------

  /** The placeholder `{k}` for the variable `k`. */
  function Placeholder(k: string): (p: string)
    ensures |p| == |k| + 2 && p[0] == '{' && p[|p| - 1] == '}'
  {
    "{" + k + "}"
  }

  /** substitute: for each variable, in the order the map is visited, every
      occurrence of its placeholder in the text so far is replaced by its
      value. */
  function Substitute(pattern: string, vars: seq<Entry>): (r: string)
    ensures (forall e :: e in vars ==> !Occurs(Placeholder(e.key), pattern)) ==> r == pattern
    decreases |vars|
  {
    if vars == [] then pattern
    else
      var last := vars[|vars| - 1];
      ReplaceAll(Substitute(pattern, vars[..|vars| - 1]), Placeholder(last.key), last.value)
  }

  /** A pattern without `{` holds no placeholder, so it comes back
      unchanged whatever the variables. */
  lemma SubstituteNoBrace(pattern: string, vars: seq<Entry>)
    requires '{' !in pattern
    ensures Substitute(pattern, vars) == pattern
  {
    forall e | e in vars
      ensures !Occurs(Placeholder(e.key), pattern)
    {
      OccursNeedsHead(Placeholder(e.key), pattern);
    }
  }

  /** No brace in the string. */
  predicate BraceFree(s: string)
  {
    '{' !in s && '}' !in s
  }

  /** A template as its author sees it: literal text and `{name}` holes. */
  datatype Piece = Text(text: string) | Hole(name: string)

  /** Literal text and hole names hold no braces. */
  predicate WellFormed(ps: seq<Piece>)
  {
    forall i :: 0 <= i < |ps| ==>
      match ps[i]
      case Text(t) => BraceFree(t)
      case Hole(n) => BraceFree(n)
  }

  /** Keys and values hold no braces. */
  predicate BraceFreeVars(d: seq<Entry>)
  {
    forall e :: e in d ==> BraceFree(e.key) && BraceFree(e.value)
  }

  /** Brace-free lists concatenate to a brace-free list. */
  lemma BraceFreeVarsConcat(a: seq<Entry>, b: seq<Entry>)
    requires BraceFreeVars(a) && BraceFreeVars(b)
    ensures BraceFreeVars(a + b)
  {
    forall e | e in a + b
      ensures BraceFree(e.key) && BraceFree(e.value)
    {
      assert e in a || e in b;
    }
  }

  /** The pattern string of a template. */
  function TemplateText(ps: seq<Piece>): string
  {
    if ps == [] then ""
    else
      match ps[0]
      case Text(t) => t + TemplateText(ps[1..])
      case Hole(n) => Placeholder(n) + TemplateText(ps[1..])
  }

  /** What a template means: every hole whose name is bound is replaced by
      its value, and an unbound hole is left as written. */
  function Render(ps: seq<Piece>, vars: seq<Entry>): string
  {
    if ps == [] then ""
    else
      match ps[0]
      case Text(t) => t + Render(ps[1..], vars)
      case Hole(n) =>
        (match Get(vars, n) case Some(v) => v case None => Placeholder(n)) + Render(ps[1..], vars)
  }

  /** The placeholders of two different brace-free names differ within the
      length of the second one. */
  lemma PlaceholderNotPrefix(j: string, k: string, x: string)
    requires BraceFree(j) && BraceFree(k) && j != k
    requires |Placeholder(j) + x| >= |Placeholder(k)|
    ensures (Placeholder(j) + x)[..|Placeholder(k)|] != Placeholder(k)
  {
    var s := Placeholder(j) + x;
    var pk := Placeholder(k);
    if |k| < |j| {
      assert s[|k| + 1] == j[|k|] != '}' == pk[|k| + 1];
    } else if |k| > |j| {
      assert s[|j| + 1] == '}' != k[|j|] == pk[|j| + 1];
    } else {
      var i :| 0 <= i < |j| && j[i] != k[i];
      assert s[i + 1] != pk[i + 1];
    }
  }

  /** Replacing `{k}` in `{j}` + x, when `{k}` fits: the first character
      cannot start a match and the rest of `{j}` holds no `{`. */
  lemma PlaceholderMismatchLong(j: string, k: string, x: string, v: string)
    requires BraceFree(j) && BraceFree(k) && j != k
    requires |Placeholder(j) + x| >= |Placeholder(k)|
    ensures ReplaceAll(Placeholder(j) + x, Placeholder(k), v) == Placeholder(j) + ReplaceAll(x, Placeholder(k), v)
  {
    var s := Placeholder(j) + x;
    var pk := Placeholder(k);
    var tail := j + "}";
    assert s == "{" + (tail + x);
    PlaceholderNotPrefix(j, k, x);
    ReplaceAllMissesHead(s, pk, v);
    assert s[1..] == tail + x;
    ReplaceAllSkips(tail, x, pk, v);
  }

  /** A placeholder never matches at the start of another variable's
      placeholder: with `j != k` both brace-free, replacing `{k}` in
      `{j}` + x copies `{j}` through. */
  lemma PlaceholderMismatch(j: string, k: string, x: string, v: string)
    requires BraceFree(j) && BraceFree(k) && j != k
    ensures ReplaceAll(Placeholder(j) + x, Placeholder(k), v) == Placeholder(j) + ReplaceAll(x, Placeholder(k), v)
  {
    if |Placeholder(j) + x| >= |Placeholder(k)| {
      PlaceholderMismatchLong(j, k, x, v);
    } else {
      ReplaceAllShort(Placeholder(j) + x, Placeholder(k), v);
      ReplaceAllShort(x, Placeholder(k), v);
    }
  }

  /** One replacement step of substitute moves a template one variable
      further through its meaning. */
  lemma {:induction false} RenderStep(ps: seq<Piece>, d: seq<Entry>, k: string, v: string)
    requires WellFormed(ps) && BraceFreeVars(d)
    requires BraceFree(k) && BraceFree(v) && k !in Keys(d)
    ensures ReplaceAll(Render(ps, d), Placeholder(k), v) == Render(ps, d + [Entry(k, v)])
    decreases |ps|
  {
    var d' := d + [Entry(k, v)];
    AppendEntry(d, Entry(k, v));
    if ps != [] {
      assert WellFormed(ps[1..]) by {
        forall i | 0 <= i < |ps[1..]|
          ensures match ps[1..][i] case Text(t) => BraceFree(t) case Hole(n) => BraceFree(n)
        {
          assert ps[1..][i] == ps[i + 1];
        }
      }
      RenderStep(ps[1..], d, k, v);
      var rest := Render(ps[1..], d);
      var pk := Placeholder(k);
      match ps[0]
      case Text(t) =>
        ReplaceAllSkips(t, rest, pk, v);
      case Hole(n) =>
        if n == k {
          assert Get(d, n) == None;
          ReplaceAllMatchesHead(rest, pk, v);
        } else {
          match Get(d, n)
          case Some(w) =>
            assert Entry(n, w) in d;
            ReplaceAllSkips(w, rest, pk, v);
          case None =>
            PlaceholderMismatch(n, k, rest, v);
        }
    }
  }

  /** Rendering against no variables gives the pattern back. */
  lemma {:induction false} RenderNoVars(ps: seq<Piece>)
    ensures Render(ps, []) == TemplateText(ps)
    decreases |ps|
  {
    if ps != [] {
      RenderNoVars(ps[1..]);
    }
  }

  /** substitute computes the meaning of a template, whatever order the
      map's entries are visited in, as long as no brace appears in the
      template's text, in a variable name or in a value: every hole of a
      bound variable is replaced, every other one is kept. */
  lemma {:induction false} SubstituteRenders(ps: seq<Piece>, vars: Dict)
    requires WellFormed(ps) && BraceFreeVars(vars)
    ensures Substitute(TemplateText(ps), vars) == Render(ps, vars)
    decreases |vars|
  {
    if vars == [] {
      RenderNoVars(ps);
    } else {
      var init, last := vars[..|vars| - 1], vars[|vars| - 1];
      assert vars == init + [last];
      SubstituteRenders(ps, init);
      RenderStep(ps, init, last.key, last.value);
    }
  }

  // ---------------------------------------------------------------------
  // Numbers and units
  // ---------------------------------------------------------------------

  /** The dynamic value of a plugin metric: Go's int, int8 .. int64 are
      `Signed`, uint, uint8 .. uint64 are `Unsigned`, float32 and float64 are
      `Floating`; every other type (a string, a struct, nil) is `Other`. */
  datatype Scalar = Signed(i: int) | Unsigned(u: nat) | Floating(f: Float) | Other(text: string)

  /** toNumber: the value as a float64, or an error for a non-numeric value. */
  function ToNumber(v: Scalar): (r: Result<Float>)
    ensures r.Ok? <==> !v.Other?
    ensures v.Floating? ==> r == Ok(v.f)
    ensures r.Ok? && !v.Floating? ==> IsFinite(r.value)
  {
    match v
    case Signed(i) => Ok(Finite(i as real))
    case Unsigned(u) => Ok(Finite(u as real))
    case Floating(f) => Ok(f)
    case Other(_) => Err("not a number")
  }

  /** Integers convert exactly: the float is the mathematically equal
      value, a whole number whose integer part is the integer. */
  lemma ToNumberExact(v: Scalar)
    requires v.Signed? || v.Unsigned?
    ensures ToNumber(v).Ok? && IsFinite(ToNumber(v).value)
    ensures v.Signed? ==> ToNumber(v).value == Finite(v.i as real)
    ensures v.Unsigned? ==> ToNumber(v).value == Finite(v.u as real)
    ensures ToNumber(v).value.r == ToNumber(v).value.r.Floor as real
  {
  }

  /** `b` to the power `e`. */
  function Pow(b: real, e: nat): (r: real)
    ensures b > 0.0 ==> r > 0.0
  {
    if e == 0 then 1.0 else b * Pow(b, e - 1)
  }

  /** convertToBaseUnit: time units are brought to seconds, decimal and
      binary prefixes are multiplied out; any other unit leaves the value
      alone. */
  function ConvertToBaseUnit(unit: string, value: Float): (r: Float)
    ensures unit !in TimeUnits + DecimalPrefixes + BinaryPrefixes ==> r == value
    ensures IsFinite(r) <==> IsFinite(value)
    ensures r.NaN? <==> value.NaN?
  {
    if unit == "ns" then Over(value, 1_000_000_000.0)
    else if unit == "us" then Over(value, 1_000_000.0)
    else if unit == "ms" then Over(value, 1_000.0)
    else if unit == "k" then Times(value, 1_000.0)
    else if unit == "M" then Times(value, 1_000_000.0)
    else if unit == "G" then Times(value, 1_000_000_000.0)
    else if unit == "T" then Times(value, 1_000_000_000_000.0)
    else if unit == "P" then Times(value, 1_000_000_000_000_000.0)
    else if unit == "E" then Times(value, 1_000_000_000_000_000_000.0)
    else if unit == "Z" then Times(value, 1_000_000_000_000_000_000_000.0)
    else if unit == "Y" then Times(value, 1_000_000_000_000_000_000_000_000.0)
    else if unit == "Ki" then Times(value, Pow(1024.0, 1))
    else if unit == "Mi" then Times(value, Pow(1024.0, 2))
    else if unit == "Gi" then Times(value, Pow(1024.0, 3))
    else if unit == "Ti" then Times(value, Pow(1024.0, 4))
    else if unit == "Pi" then Times(value, Pow(1024.0, 5))
    else if unit == "Ei" then Times(value, Pow(1024.0, 6))
    else if unit == "Zi" then Times(value, Pow(1024.0, 7))
    else if unit == "Yi" then Times(value, Pow(1024.0, 8))
    else value
  }

  /** Time units, from milli- to nano-. */
  const TimeUnits: seq<string> := ["ms", "us", "ns"]

  /** SI prefixes, from kilo- to yotta-. */
  const DecimalPrefixes: seq<string> := ["k", "M", "G", "T", "P", "E", "Z", "Y"]

  /** IEC prefixes, from kibi- to yobi-. */
  const BinaryPrefixes: seq<string> := ["Ki", "Mi", "Gi", "Ti", "Pi", "Ei", "Zi", "Yi"]

  /** One plus the position of `unit` in `table`. */
  function Rank(table: seq<string>, unit: string): (n: nat)
    requires unit in table
    ensures 1 <= n <= |table| && table[n - 1] == unit
  {
    if table[0] == unit then 1 else 1 + Rank(table[1..], unit)
  }

  /** The factor a unit stands for, read off the three tables: the n-th
      time unit is 1000^-n, the n-th SI prefix 1000^n and the n-th IEC
      prefix 1024^n. */
  function ScaleFactor(unit: string): (f: real)
    ensures f > 0.0
  {
    if unit in TimeUnits then 1.0 / Pow(1000.0, Rank(TimeUnits, unit))
    else if unit in DecimalPrefixes then Pow(1000.0, Rank(DecimalPrefixes, unit))
    else if unit in BinaryPrefixes then Pow(1024.0, Rank(BinaryPrefixes, unit))
    else 1.0
  }

  /** The powers of 1000 written out in convertToBaseUnit. */
  lemma ThousandPowers()
    ensures Pow(1000.0, 1) == 1_000.0
    ensures Pow(1000.0, 2) == 1_000_000.0
    ensures Pow(1000.0, 3) == 1_000_000_000.0
    ensures Pow(1000.0, 4) == 1_000_000_000_000.0
    ensures Pow(1000.0, 5) == 1_000_000_000_000_000.0
    ensures Pow(1000.0, 6) == 1_000_000_000_000_000_000.0
    ensures Pow(1000.0, 7) == 1_000_000_000_000_000_000_000.0
    ensures Pow(1000.0, 8) == 1_000_000_000_000_000_000_000_000.0
  {
  }

  /** Milli-, micro- and nanoseconds divide by 1000, 1000^2 and 1000^3. */
  lemma ConvertTimeUnits(n: nat, value: Float)
    requires 1 <= n <= 3
    ensures ConvertToBaseUnit(TimeUnits[n - 1], value) == Over(value, Pow(1000.0, n))
  {
    ThousandPowers();
    if n == 1 {
    } else if n == 2 {
    } else {
      assert n == 3;
    }
  }

  /** Kilo- to tera- multiply by 1000 to 1000^4. */
  lemma ConvertSmallDecimalPrefixes(n: nat, value: Float)
    requires 1 <= n <= 4
    ensures ConvertToBaseUnit(DecimalPrefixes[n - 1], value) == Times(value, Pow(1000.0, n))
  {
    ThousandPowers();
    if n == 1 {
    } else if n == 2 {
    } else if n == 3 {
    } else {
      assert n == 4;
    }
  }

  /** Peta- to yotta- multiply by 1000^5 to 1000^8. */
  lemma ConvertLargeDecimalPrefixes(n: nat, value: Float)
    requires 5 <= n <= 8
    ensures ConvertToBaseUnit(DecimalPrefixes[n - 1], value) == Times(value, Pow(1000.0, n))
  {
    ThousandPowers();
    if n == 5 {
    } else if n == 6 {
    } else if n == 7 {
    } else {
      assert n == 8;
    }
  }

  /** Kibi- to mebi- multiply by 1024 to 1024^3. */
  lemma ConvertSmallBinaryPrefixes(n: nat, value: Float)
    requires 1 <= n <= 3
    ensures ConvertToBaseUnit(BinaryPrefixes[n - 1], value) == Times(value, Pow(1024.0, n))
  {
    if n == 1 {
    } else if n == 2 {
    } else {
      assert n == 3;
    }
  }

  /** Tebi- to exbi- multiply by 1024^4 to 1024^6. */
  lemma ConvertMiddleBinaryPrefixes(n: nat, value: Float)
    requires 4 <= n <= 6
    ensures ConvertToBaseUnit(BinaryPrefixes[n - 1], value) == Times(value, Pow(1024.0, n))
  {
    if n == 4 {
    } else if n == 5 {
    } else {
      assert n == 6;
    }
  }

  /** Zebi- and yobi- multiply by 1024^7 and 1024^8. */
  lemma ConvertLargeBinaryPrefixes(n: nat, value: Float)
    requires 7 <= n <= 8
    ensures ConvertToBaseUnit(BinaryPrefixes[n - 1], value) == Times(value, Pow(1024.0, n))
  {
    if n == 7 {
    } else {
      assert n == 8;
    }
  }

  /** The three tables have no unit in common. */
  lemma TablesDisjoint(unit: string)
    ensures unit in TimeUnits ==> unit !in DecimalPrefixes && unit !in BinaryPrefixes
    ensures unit in DecimalPrefixes ==> unit !in BinaryPrefixes
  {
  }

  /** Every unit scales the value by the factor its table gives; a unit in
      none of the tables has factor 1. */
  lemma ConvertScalesByTable(unit: string, value: Float)
    ensures ConvertToBaseUnit(unit, value) == Times(value, ScaleFactor(unit))
  {
    TablesDisjoint(unit);
    if unit in TimeUnits {
      ConvertTimeUnits(Rank(TimeUnits, unit), value);
    } else if unit in DecimalPrefixes {
      var n := Rank(DecimalPrefixes, unit);
      if n <= 4 {
        ConvertSmallDecimalPrefixes(n, value);
      } else {
        ConvertLargeDecimalPrefixes(n, value);
      }
    } else if unit in BinaryPrefixes {
      var n := Rank(BinaryPrefixes, unit);
      if n <= 3 {
        ConvertSmallBinaryPrefixes(n, value);
      } else if n <= 6 {
        ConvertMiddleBinaryPrefixes(n, value);
      } else {
        ConvertLargeBinaryPrefixes(n, value);
      }
    }
  }

  // ---------------------------------------------------------------------
  // Namespaces and the variable map
  // ---------------------------------------------------------------------

  /** A namespace element: a fixed string, or a named slot whose value is
      filled in when the metric is collected. */
  datatype Element = Static(value: string) | Dynamic(name: string, value: string)

  /** A metric's namespace, most significant element first. */
  type Namespace = seq<Element>

  /** The values of the elements, in order. */
  function Values(ns: Namespace): (r: seq<string>)
    ensures |r| == |ns| && forall i :: 0 <= i < |ns| ==> r[i] == ns[i].value
  {
    seq(|ns|, i requires 0 <= i < |ns| => ns[i].value)
  }

  /** The values of the static elements, in order. */
  function StaticValues(ns: Namespace): (r: seq<string>)
    ensures |r| <= |ns|
    decreases |ns|
  {
    if ns == [] then []
    else
      var init, last := ns[..|ns| - 1], ns[|ns| - 1];
      if last.Static? then StaticValues(init) + [last.value] else StaticValues(init)
  }

  /** The static values are the values of the static elements, read off
      a filter of the namespace. */
  lemma {:induction false} StaticValuesFilter(ns: Namespace)
    ensures StaticValues(ns) == Values(Filter(ns, (e: Element) => e.Static?))
    decreases |ns|
  {
    if ns != [] {
      var init, last := ns[..|ns| - 1], ns[|ns| - 1];
      var kept := Filter(init, (e: Element) => e.Static?);
      StaticValuesFilter(init);
      if last.Static? {
        assert Values(kept + [last]) == Values(kept) + [last.value];
      }
    }
  }

  /** The namespace joined with dots, the default Atlas name. */
  function DottedName(ns: Namespace): string
  {
    Join(Values(ns), ".")
  }

  /** The variable keys element `j` writes: its position from the front,
      its (negative) position from the back, and its name if dynamic. */
  function WrittenKeys(ns: Namespace, j: nat): (keys: set<string>)
    requires j < |ns|
  {
    {IntToString(j), IntToString(j - |ns|)} + (if ns[j].Dynamic? then {ns[j].name} else {})
  }

  /** The assignments one pass of the loop makes: element `j`'s value under
      its two positional keys and, for a dynamic element, its name. */
  function ElementWrites(ns: Namespace, j: nat): seq<Entry>
    requires j < |ns|
  {
    var e := ns[j];
    [Entry(IntToString(j), e.value), Entry(IntToString(j - |ns|), e.value)]
      + (if e.Dynamic? then [Entry(e.name, e.value)] else [])
  }

  /** The assignments of the first `i` passes, in order. */
  function LoopWrites(ns: Namespace, i: nat): seq<Entry>
    requires i <= |ns|
  {
    if i == 0 then [] else LoopWrites(ns, i - 1) + ElementWrites(ns, i - 1)
  }

  /** Every assignment createAtlasTags makes to its variable map: `namespace`
      first, then the loop, then `namespace_static`. */
  function VarWrites(ns: Namespace): seq<Entry>
  {
    [Entry("namespace", DottedName(ns))] + LoopWrites(ns, |ns|)
      + [Entry("namespace_static", Join(StaticValues(ns), "."))]
  }

  /** The variable map createAtlasTags builds from a namespace: always
      `namespace` and `namespace_static`, plus every key the loop writes;
      `namespace_static`, written last, holds the joined static values. */
  function NamespaceVars(ns: Namespace): (vars: Dict)
    ensures Keys(vars) == {"namespace", "namespace_static"} + Keys(LoopWrites(ns, |ns|))
    ensures Get(vars, "namespace_static") == Some(Join(StaticValues(ns), "."))
  {
    var head := [Entry("namespace", DottedName(ns))] + LoopWrites(ns, |ns|);
    var staticEntry := Entry("namespace_static", Join(StaticValues(ns), "."));
    assert VarWrites(ns) == head + [staticEntry];
    KeysConcat([Entry("namespace", DottedName(ns))], LoopWrites(ns, |ns|));
    AppendEntry(head, staticEntry);
    PutAllGet([], VarWrites(ns), "namespace_static");
    PutAll([], VarWrites(ns))
  }

  /** A pass writes exactly the keys `WrittenKeys` names, all with the
      element's value. */
  lemma ElementWritesLast(ns: Namespace, j: nat, key: string)
    requires j < |ns|
    ensures LastWrite(ElementWrites(ns, j), key) ==
              if key in WrittenKeys(ns, j) then Some(ns[j].value) else None
  {
    var e := ns[j];
    var pos := [Entry(IntToString(j), e.value), Entry(IntToString(j - |ns|), e.value)];
    var dyn: seq<Entry> := if e.Dynamic? then [Entry(e.name, e.value)] else [];
    LastWriteAppend(pos, dyn, key);
    assert pos[..1] == [pos[0]];
    assert [pos[0]][..0] == [];
  }

  /** The last loop write of a key comes from the last pass that writes it. */
  lemma LoopWritesStep(ns: Namespace, i: nat, key: string)
    requires 0 < i <= |ns|
    ensures LastWrite(LoopWrites(ns, i), key) ==
              if key in WrittenKeys(ns, i - 1) then Some(ns[i - 1].value)
              else LastWrite(LoopWrites(ns, i - 1), key)
  {
    LastWriteAppend(LoopWrites(ns, i - 1), ElementWrites(ns, i - 1), key);
    ElementWritesLast(ns, i - 1, key);
  }

  /** The first `i` passes write a key exactly when one of the first `i`
      elements names it. */
  lemma {:induction false} LoopWritesDefined(ns: Namespace, i: nat, key: string)
    requires i <= |ns|
    ensures LastWrite(LoopWrites(ns, i), key).Some? <==>
              exists j :: 0 <= j < i && key in WrittenKeys(ns, j)
  {
    if i > 0 {
      LoopWritesDefined(ns, i - 1, key);
      LoopWritesStep(ns, i, key);
      if key !in WrittenKeys(ns, i - 1) && exists j :: 0 <= j < i && key in WrittenKeys(ns, j) {
        var j :| 0 <= j < i && key in WrittenKeys(ns, j);
        assert j < i - 1;
      }
    }
  }

  /** Later writes win: a key that element `j` writes and no later element
      among the first `i` rewrites ends with element `j`'s value. */
  lemma {:induction false} LoopWritesLastWriter(ns: Namespace, i: nat, j: nat, key: string)
    requires j < i <= |ns|
    requires key in WrittenKeys(ns, j)
    requires forall l :: j < l < i ==> key !in WrittenKeys(ns, l)
    ensures LastWrite(LoopWrites(ns, i), key) == Some(ns[j].value)
  {
    LoopWritesStep(ns, i, key);
    if j == i - 1 {
      assert LastWrite(LoopWrites(ns, i), key) == Some(ns[i - 1].value);
    } else {
      var later := i - 1;
      assert j < later < i;
      assert key !in WrittenKeys(ns, later);
      LoopWritesLastWriter(ns, later, j, key);
      assert LastWrite(LoopWrites(ns, i), key) == LastWrite(LoopWrites(ns, later), key);
    }
  }

  /** A lookup in the variable map: `namespace_static` from after the loop,
      then the loop's last write, then the initial `namespace`. */
  lemma NamespaceVarsGet(ns: Namespace, key: string)
    ensures Get(NamespaceVars(ns), key) ==
              if key == "namespace_static" then Some(Join(StaticValues(ns), "."))
              else if LastWrite(LoopWrites(ns, |ns|), key).Some? then LastWrite(LoopWrites(ns, |ns|), key)
              else if key == "namespace" then Some(DottedName(ns))
              else None
  {
    var first := [Entry("namespace", DottedName(ns))];
    var loop := LoopWrites(ns, |ns|);
    var last := [Entry("namespace_static", Join(StaticValues(ns), "."))];
    PutAllGet([], VarWrites(ns), key);
    LastWriteAppend(first + loop, last, key);
    LastWriteAppend(first, loop, key);
    assert first[..0] == [] && last[..0] == [];
  }

  /** The variable map binds exactly `namespace`, `namespace_static` and
      the keys some element writes. */
  lemma NamespaceVarsKeys(ns: Namespace, key: string)
    ensures key in Keys(NamespaceVars(ns)) <==>
              || key == "namespace" || key == "namespace_static"
              || exists j :: 0 <= j < |ns| && key in WrittenKeys(ns, j)
  {
    NamespaceVarsGet(ns, key);
    LoopWritesDefined(ns, |ns|, key);
  }

  /** Last writer wins in the finished map too, except for
      `namespace_static`, which is written after the loop. */
  lemma NamespaceVarsLastWriter(ns: Namespace, j: nat, key: string)
    requires j < |ns| && key in WrittenKeys(ns, j) && key != "namespace_static"
    requires forall l :: j < l < |ns| ==> key !in WrittenKeys(ns, l)
    ensures Get(NamespaceVars(ns), key) == Some(ns[j].value)
  {
    NamespaceVarsGet(ns, key);
    LoopWritesLastWriter(ns, |ns|, j, key);
  }

  /** A printed number is never one of the two named variables. */
  lemma NumberIsNotNamed(i: int)
    ensures IntToString(i) != "namespace" && IntToString(i) != "namespace_static"
  {
    assert IntToString(i)[0] != 'n';
  }

  /** Only a dynamic element called `namespace` writes `namespace`. */
  lemma NamespaceKeyWriters(ns: Namespace, l: nat)
    requires l < |ns| && !(ns[l].Dynamic? && ns[l].name == "namespace")
    ensures "namespace" !in WrittenKeys(ns, l)
  {
    NumberIsNotNamed(l);
    NumberIsNotNamed(l - |ns|);
  }

  /** `{namespace}` is the dotted namespace unless a dynamic element is
      itself called `namespace`. */
  lemma NamespaceVarsDottedName(ns: Namespace)
    requires forall l :: 0 <= l < |ns| ==> !(ns[l].Dynamic? && ns[l].name == "namespace")
    ensures Get(NamespaceVars(ns), "namespace") == Some(DottedName(ns))
  {
    forall l | 0 <= l < |ns|
      ensures "namespace" !in WrittenKeys(ns, l)
    {
      NamespaceKeyWriters(ns, l);
    }
    NamespaceVarsGet(ns, "namespace");
    LoopWritesDefined(ns, |ns|, "namespace");
  }

  /** A string `fmt.Sprintf("%d", ·)` could have produced starts with a
      digit or a minus sign. */
  predicate LooksPositional(s: string)
  {
    |s| > 0 && (s[0] == '-' || '0' <= s[0] <= '9')
  }

  /** No dynamic element's name could collide with a positional key. */
  predicate PlainNames(ns: Namespace)
  {
    forall l :: 0 <= l < |ns| && ns[l].Dynamic? ==> !LooksPositional(ns[l].name)
  }

  /** Every printed number looks positional. */
  lemma NumberLooksPositional(i: int)
    ensures LooksPositional(IntToString(i))
  {
    var r := IntToString(i);
    assert r[0] == '-' || '0' <= r[0] <= '9';
  }

  /** Printed numbers of the same sign differ when the numbers do. */
  lemma NumbersDiffer(a: int, b: int)
    requires a != b
    ensures IntToString(a) != IntToString(b)
  {
    if IntToString(a) == IntToString(b) {
      IntToStringInjective(a, b);
    }
  }

  /** With plain names, a later element never rewrites element `i`'s
      positional keys. */
  lemma PositionalKeysDiffer(ns: Namespace, i: nat, l: nat)
    requires i < l < |ns| && PlainNames(ns)
    ensures IntToString(i) !in WrittenKeys(ns, l) && IntToString(i - |ns|) !in WrittenKeys(ns, l)
  {
    var n := |ns|;
    NumbersDiffer(i, l);
    NumbersDiffer(i, l - n);
    NumbersDiffer(i - n, l);
    NumbersDiffer(i - n, l - n);
    if ns[l].Dynamic? {
      NumberLooksPositional(i);
      NumberLooksPositional(i - n);
    }
  }

  /** `{i}` and `{i-n}` both resolve to element `i` unless a later element
      writes the same key; only a later dynamic element whose name is that
      numeral can, since later positions print differently. */
  lemma PositionalVars(ns: Namespace, i: nat)
    requires i < |ns|
    requires forall l :: i < l < |ns| ==>
               IntToString(i) !in WrittenKeys(ns, l) && IntToString(i - |ns|) !in WrittenKeys(ns, l)
    ensures Get(NamespaceVars(ns), IntToString(i)) == Some(ns[i].value)
    ensures Get(NamespaceVars(ns), IntToString(i - |ns|)) == Some(ns[i].value)
  {
    NumberIsNotNamed(i);
    NumberIsNotNamed(i - |ns|);
    NamespaceVarsLastWriter(ns, i, IntToString(i));
    NamespaceVarsLastWriter(ns, i, IntToString(i - |ns|));
  }

  /** With plain names no later element can write element `i`'s positional
      keys, so `{i}` and `{i-n}` resolve to element `i`. */
  lemma PositionalVarsPlain(ns: Namespace, i: nat)
    requires i < |ns| && PlainNames(ns)
    ensures Get(NamespaceVars(ns), IntToString(i)) == Some(ns[i].value)
    ensures Get(NamespaceVars(ns), IntToString(i - |ns|)) == Some(ns[i].value)
  {
    forall l | i < l < |ns|
      ensures IntToString(i) !in WrittenKeys(ns, l) && IntToString(i - |ns|) !in WrittenKeys(ns, l)
    {
      PositionalKeysDiffer(ns, i, l);
    }
    PositionalVars(ns, i);
  }

  /** A dynamic element's name resolves to its value unless a later
      element writes the same key (as one of its positional keys, such as
      `1` or `-1`, or as its own name) or the name is `namespace_static`,
      which is written after the loop. */
  lemma DynamicVar(ns: Namespace, j: nat)
    requires j < |ns| && ns[j].Dynamic? && ns[j].name != "namespace_static"
    requires forall l :: j < l < |ns| ==> ns[j].name !in WrittenKeys(ns, l)
    ensures Get(NamespaceVars(ns), ns[j].name) == Some(ns[j].value)
  {
    NamespaceVarsLastWriter(ns, j, ns[j].name);
  }

  // ---------------------------------------------------------------------
  // Atlas tags
  // ---------------------------------------------------------------------

  /** Tags that describe the metric to the normaliser, not to Atlas. */
  const IgnoredTags: set<string> := {"unit", "plugin_running_on"}

  /** The assignments the tag loop makes: each tag that is not ignored,
      its value with the namespace variables substituted. */
  function TagWrites(tags: Dict, vars: Dict): (writes: seq<Entry>)
    ensures Keys(writes) == Keys(tags) - IgnoredTags
  {
    if tags == [] then []
    else
      var init, last := tags[..|tags| - 1], tags[|tags| - 1];
      assert Distinct(init);
      var mine := if last.key in IgnoredTags then [] else [Entry(last.key, Substitute(last.value, vars))];
      KeysConcat(TagWrites(init, vars), mine);
      assert Keys(mine) == {last.key} - IgnoredTags by {
        if mine != [] { assert mine[..0] == []; }
      }
      TagWrites(init, vars) + mine
  }

  /** Each tag is written at most once, so its last write is its only one. */
  lemma {:induction false} TagWritesLast(tags: Dict, vars: Dict, k: string)
    ensures LastWrite(TagWrites(tags, vars), k) ==
              if k in IgnoredTags || k !in Keys(tags) then None
              else Some(Substitute(Get(tags, k).value, vars))
    decreases |tags|
  {
    if tags != [] {
      var init, last := tags[..|tags| - 1], tags[|tags| - 1];
      assert Distinct(init) && last.key !in Keys(init);
      var mine := if last.key in IgnoredTags then [] else [Entry(last.key, Substitute(last.value, vars))];
      TagWritesLast(init, vars, k);
      LastWriteAppend(TagWrites(init, vars), mine, k);
      assert mine == [] || mine[..0] == [];
    }
  }

  /** createAtlasTags: `name` set to the dotted namespace, then every tag
      that is not ignored, with namespace variables substituted. */
  function CreateAtlasTags(ns: Namespace, tags: Dict): (atlasTags: Dict)
    ensures Keys(atlasTags) == {"name"} + (Keys(tags) - IgnoredTags)
  {
    var vars := NamespaceVars(ns);
    PutAll(Put([], "name", GetOr(vars, "namespace", "")), TagWrites(tags, vars))
  }

  /** A lookup in the Atlas tags: a kept tag gives its substituted value,
      `name` otherwise defaults to `{namespace}`, anything else is absent. */
  lemma CreateAtlasTagsGet(ns: Namespace, tags: Dict, k: string)
    ensures Get(CreateAtlasTags(ns, tags), k) ==
              if k !in IgnoredTags && k in Keys(tags) then Some(Substitute(Get(tags, k).value, NamespaceVars(ns)))
              else if k == "name" then Some(GetOr(NamespaceVars(ns), "namespace", ""))
              else None
  {
    var vars := NamespaceVars(ns);
    PutAllGet(Put([], "name", GetOr(vars, "namespace", "")), TagWrites(tags, vars), k);
    TagWritesLast(tags, vars, k);
  }

  /** `unit` and `plugin_running_on` never reach Atlas, whatever their
      values. */
  lemma CreateAtlasTagsDropsIgnored(ns: Namespace, tags: Dict)
    ensures "unit" !in Keys(CreateAtlasTags(ns, tags))
    ensures "plugin_running_on" !in Keys(CreateAtlasTags(ns, tags))
  {
  }

  /** A kept tag whose value has no `{` is copied unchanged; in particular
      an explicit `name` tag overrides the default name. */
  lemma CreateAtlasTagsCopiesPlainTag(ns: Namespace, tags: Dict, k: string)
    requires k !in IgnoredTags && k in Keys(tags) && '{' !in Get(tags, k).value
    ensures Get(CreateAtlasTags(ns, tags), k) == Get(tags, k)
  {
    CreateAtlasTagsGet(ns, tags, k);
    SubstituteNoBrace(Get(tags, k).value, NamespaceVars(ns));
  }

  /** Without a `name` tag, and with no dynamic element called `namespace`,
      the Atlas name is the dotted namespace. */
  lemma CreateAtlasTagsDefaultName(ns: Namespace, tags: Dict)
    requires "name" !in Keys(tags)
    requires forall l :: 0 <= l < |ns| ==> !(ns[l].Dynamic? && ns[l].name == "namespace")
    ensures Get(CreateAtlasTags(ns, tags), "name") == Some(DottedName(ns))
  {
    CreateAtlasTagsGet(ns, tags, "name");
    NamespaceVarsDottedName(ns);
  }

  /** No brace in any element's value or in any dynamic element's name. */
  predicate BraceFreeNamespace(ns: Namespace)
  {
    forall l :: 0 <= l < |ns| ==> BraceFree(ns[l].value) && (ns[l].Dynamic? ==> BraceFree(ns[l].name))
  }

  /** A printed number holds no brace. */
  lemma NumberBraceFree(i: int)
    ensures BraceFree(IntToString(i))
  {
    var r := IntToString(i);
    forall k | 0 <= k < |r|
      ensures r[k] != '{' && r[k] != '}'
    {
      assert r[k] == '-' || '0' <= r[k] <= '9';
    }
  }

  /** The static values are some of the element values. */
  lemma {:induction false} StaticValuesAvoid(ns: Namespace, c: char)
    requires forall l :: 0 <= l < |ns| ==> c !in ns[l].value
    ensures forall i :: 0 <= i < |StaticValues(ns)| ==> c !in StaticValues(ns)[i]
    decreases |ns|
  {
    if ns != [] {
      var init := ns[..|ns| - 1];
      assert forall l :: 0 <= l < |init| ==> init[l] == ns[l];
      StaticValuesAvoid(init, c);
    }
  }

  /** Over a brace-free namespace a pass writes only brace-free entries. */
  lemma ElementWritesBraceFree(ns: Namespace, j: nat)
    requires j < |ns| && BraceFreeNamespace(ns)
    ensures BraceFreeVars(ElementWrites(ns, j))
  {
    NumberBraceFree(j);
    NumberBraceFree(j - |ns|);
  }

  /** Over a brace-free namespace the loop writes only brace-free entries. */
  lemma {:induction false} LoopWritesBraceFree(ns: Namespace, i: nat)
    requires i <= |ns| && BraceFreeNamespace(ns)
    ensures BraceFreeVars(LoopWrites(ns, i))
  {
    if i > 0 {
      LoopWritesBraceFree(ns, i - 1);
      ElementWritesBraceFree(ns, i - 1);
    }
  }

  /** The two joined names are brace-free over a brace-free namespace. */
  lemma JoinedNamesBraceFree(ns: Namespace)
    requires BraceFreeNamespace(ns)
    ensures BraceFree(DottedName(ns)) && BraceFree(Join(StaticValues(ns), "."))
  {
    JoinAvoids(Values(ns), ".", '{');
    JoinAvoids(Values(ns), ".", '}');
    StaticValuesAvoid(ns, '{');
    StaticValuesAvoid(ns, '}');
    JoinAvoids(StaticValues(ns), ".", '{');
    JoinAvoids(StaticValues(ns), ".", '}');
  }

  /** One assignment of a brace-free value to a brace-free key. */
  lemma SingleWriteBraceFree(key: string, value: string)
    requires forall c :: c in key ==> 'a' <= c <= 'z' || c == '_'
    requires BraceFree(value)
    ensures BraceFreeVars([Entry(key, value)])
  {
  }

  /** Over a brace-free namespace every assignment to the variable map is
      brace-free. */
  lemma VarWritesBraceFree(ns: Namespace)
    requires BraceFreeNamespace(ns)
    ensures BraceFreeVars(VarWrites(ns))
  {
    LoopWritesBraceFree(ns, |ns|);
    JoinedNamesBraceFree(ns);
    var first := [Entry("namespace", DottedName(ns))];
    var last := [Entry("namespace_static", Join(StaticValues(ns), "."))];
    SingleWriteBraceFree("namespace", DottedName(ns));
    SingleWriteBraceFree("namespace_static", Join(StaticValues(ns), "."));
    BraceFreeVarsConcat(first, LoopWrites(ns, |ns|));
    BraceFreeVarsConcat(first + LoopWrites(ns, |ns|), last);
  }

  /** Over a brace-free namespace every variable name and value is
      brace-free. */
  lemma NamespaceVarsBraceFree(ns: Namespace)
    requires BraceFreeNamespace(ns)
    ensures BraceFreeVars(NamespaceVars(ns))
  {
    var writes := VarWrites(ns);
    VarWritesBraceFree(ns);
    forall e | e in NamespaceVars(ns)
      ensures BraceFree(e.key) && BraceFree(e.value)
    {
      PutAllEntries([], writes, e);
    }
  }

  /** A kept tag whose value is a template ends up as the template's
      meaning over the namespace variables: each hole naming a variable
      is filled, each other hole stays as written. */
  lemma CreateAtlasTagsRenders(ns: Namespace, tags: Dict, k: string, ps: seq<Piece>)
    requires BraceFreeNamespace(ns) && WellFormed(ps)
    requires k !in IgnoredTags && Get(tags, k) == Some(TemplateText(ps))
    ensures Get(CreateAtlasTags(ns, tags), k) == Some(Render(ps, NamespaceVars(ns)))
  {
    CreateAtlasTagsGet(ns, tags, k);
    NamespaceVarsBraceFree(ns);
    SubstituteRenders(ps, NamespaceVars(ns));
  }

  // ---------------------------------------------------------------------
  // Metrics
  // ---------------------------------------------------------------------

  /** Go's `int64`. */
  type Int64 = x: int | -0x8000_0000_0000_0000 <= x < 0x8000_0000_0000_0000

  /** The fields of a collected metric the normaliser reads. */
  datatype PluginMetric = PluginMetric(namespace: Namespace, unixSeconds: Int64, tags: Dict, data: Scalar)

  /** `uint64(seconds * 1000)`: the product wraps in 64-bit two's
      complement and the conversion keeps its bits. */
  function Timestamp(unixSeconds: Int64): (ms: Client.Uint64)
    ensures (ms - unixSeconds * 1000) % 0x1_0000_0000_0000_0000 == 0
    ensures 0 <= unixSeconds * 1000 < 0x1_0000_0000_0000_0000 ==> ms == unixSeconds * 1000
  {
    (unixSeconds * 1000) % 0x1_0000_0000_0000_0000
  }

  /** For any time from 1970 on that fits, the timestamp is the exact
      millisecond count, and whole seconds come back by dividing by 1000. */
  lemma TimestampExact(unixSeconds: Int64)
    requires 0 <= unixSeconds <= 9_223_372_036_854_775
    ensures Timestamp(unixSeconds) == unixSeconds * 1000
    ensures Timestamp(unixSeconds) % 1000 == 0 && Timestamp(unixSeconds) / 1000 == unixSeconds
  {
  }

  /** Times before 1970 wrap to the top of the unsigned range. */
  lemma TimestampBefore1970(unixSeconds: Int64)
    requires -9_223_372_036_854_775 <= unixSeconds < 0
    ensures Timestamp(unixSeconds) == 0x1_0000_0000_0000_0000 + unixSeconds * 1000
  {
  }

  /** toAtlasMetric: nothing when the value is not numeric; otherwise the
      Atlas tags, the timestamp in milliseconds and the value, converted to
      its base unit when the metric carries a `unit` tag. */
  function ToAtlasMetric(m: PluginMetric): (r: Option<Client.Metric>)
    ensures r.None? <==> m.data.Other?
    ensures r.Some? && "unit" !in Keys(m.tags) ==> r.value.value == ToNumber(m.data).value
  {
    match ToNumber(m.data)
    case Err(_) => None
    case Ok(v) =>
      var value := if "unit" in Keys(m.tags) then ConvertToBaseUnit(GetOr(m.tags, "unit", ""), v) else v;
      Some(Client.Metric(CreateAtlasTags(m.namespace, m.tags), Timestamp(m.unixSeconds), value))
  }

  /** A converted metric: its value scaled by its unit, its tags without
      `unit`, its timestamp in milliseconds. */
  lemma ToAtlasMetricFields(m: PluginMetric)
    requires !m.data.Other?
    ensures ToAtlasMetric(m).Some?
    ensures ToAtlasMetric(m).value.value ==
              Times(ToNumber(m.data).value, if "unit" in Keys(m.tags) then ScaleFactor(Get(m.tags, "unit").value) else 1.0)
    ensures "unit" !in Keys(ToAtlasMetric(m).value.tags)
    ensures Keys(ToAtlasMetric(m).value.tags) == {"name"} + (Keys(m.tags) - IgnoredTags)
    ensures ToAtlasMetric(m).value.tags == CreateAtlasTags(m.namespace, m.tags)
    ensures ToAtlasMetric(m).value.timestamp == Timestamp(m.unixSeconds)
  {
    var v := ToNumber(m.data).value;
    if "unit" in Keys(m.tags) {
      ConvertScalesByTable(Get(m.tags, "unit").value, v);
    } else {
      assert Times(v, 1.0) == v;
    }
  }

  /** toAtlasMetrics: the conversions that succeed, in input order. */
  function ToAtlasMetrics(ms: seq<PluginMetric>): (r: seq<Client.Metric>)
    ensures |r| <= |ms|
  {
    FilterMap(ms, ToAtlasMetric)
  }

  /** A metric is kept exactly when its value is numeric. */
  predicate IsNumeric(m: PluginMetric)
  {
    !m.data.Other?
  }

  /** The outputs are exactly the conversions of the inputs. */
  lemma ToAtlasMetricsMembership(ms: seq<PluginMetric>, x: Client.Metric)
    ensures x in ToAtlasMetrics(ms) <==> exists i :: 0 <= i < |ms| && ToAtlasMetric(ms[i]) == Some(x)
  {
    FilterMapMembership(ms, ToAtlasMetric, x);
  }

  /** One output per numeric input. */
  lemma ToAtlasMetricsCount(ms: seq<PluginMetric>)
    ensures |ToAtlasMetrics(ms)| == |Filter(ms, IsNumeric)|
  {
    FilterMapLength(ms, ToAtlasMetric);
    FilterCongruent(ms, x => ToAtlasMetric(x).Some?, IsNumeric);
  }

  /** Outputs keep the input order. */
  lemma ToAtlasMetricsConcat(ms: seq<PluginMetric>, rest: seq<PluginMetric>)
    ensures ToAtlasMetrics(ms + rest) == ToAtlasMetrics(ms) + ToAtlasMetrics(rest)
  {
    FilterMapConcat(ms, rest, ToAtlasMetric);
  }

  /** filterNot: without an exclude pattern every metric passes; with one,
      exactly the metrics whose namespace does not match it, in order. The
      match itself (a regular expression on the namespace's string form)
      is a parameter. */
  function FilterNot(ms: seq<PluginMetric>, exclude: Option<Namespace -> bool>): (r: seq<PluginMetric>)
    ensures |r| <= |ms|
    ensures exclude.None? ==> r == ms
    ensures exclude.Some? ==> forall i :: 0 <= i < |r| ==> !exclude.value(r[i].namespace)
  {
    match exclude
    case None => ms
    case Some(matches) => Filter(ms, (m: PluginMetric) => !matches(m.namespace))
  }

  /** A metric survives exactly when it is present and not excluded, and
      survivors keep their relative order. */
  lemma FilterNotKeeps(ms: seq<PluginMetric>, rest: seq<PluginMetric>, exclude: Option<Namespace -> bool>, m: PluginMetric)
    ensures m in FilterNot(ms, exclude) <==> m in ms && (exclude.None? || !exclude.value(m.namespace))
    ensures FilterNot(ms + rest, exclude) == FilterNot(ms, exclude) + FilterNot(rest, exclude)
  {
    if exclude.Some? {
      var keep := (m: PluginMetric) => !exclude.value(m.namespace);
      FilterMembership(ms, keep, m);
      FilterConcat(ms, rest, keep);
    }
  }
}

=== FILE: client.dfy ===
/** The delivery client of the Atlas publisher (atlas/client.go): tag
    sanitising, batching, NaN/Inf filtering and the request envelope. The
    HTTP post is a sink: `Publish` returns the envelopes it would post, in
    order, instead of sending them. */
module Client {
  import opened Options
  import opened Dicts
  import opened Floats
  import opened Seqs

  /** Maximum number of datapoints per request. The contracts below write
      its value, 10000, as a literal so that `10000 * k` stays linear
      arithmetic for the solver. */
  const MetricBatchSize: nat := 10000

  /** Go's `uint64`. */
  type Uint64 = x: int | 0 <= x < 0x1_0000_0000_0000_0000

  /** A canonical datapoint: tags, milliseconds since the epoch, value. */
  datatype Metric = Metric(tags: Dict, timestamp: Uint64, value: Float)

  /** The request body: the common tags and the datapoints of one batch. */
  datatype MetricBatch = MetricBatch(tags: Dict, metrics: seq<Metric>)

  /** A client: the endpoint and the sanitised tags added to every request. */
  datatype AtlasClient = AtlasClient(uri: string, commonTags: Dict)

  /** The smaller of two integers. */
  function Min(v1: int, v2: int): (r: int)
    ensures r <= v1 && r <= v2
    ensures r == v1 || r == v2
  {
    if v1 <= v2 then v1 else v2
  }

  // ---------------------------------------------------------------------
  // Sanitising
  // ---------------------------------------------------------------------

  /** The characters the switch in sanitizeString copies through. */
  predicate Kept(c: char)
  {
    ('0' <= c <= '9') || ('A' <= c <= 'Z') || ('a' <= c <= 'z') || c == '.' || c == '-'
  }

  /** The output alphabet `[A-Za-z0-9_.-]`. */
  predicate Allowed(c: char)
  {
    Kept(c) || c == '_'
  }

  /** A string drawn entirely from the output alphabet. */
  predicate IsSanitized(s: string)
  {
    forall i :: 0 <= i < |s| ==> Allowed(s[i])
  }

  /** One character of sanitizeString: kept characters stay, all others
      become `_`. */
  function SanitizeChar(c: char): char
  {
    if Kept(c) then c else '_'
  }

  /** Cleans a string, one character per byte of the Go string. */
  function SanitizeString(s: string): (r: string)
    ensures |r| == |s|
    ensures IsSanitized(r)
    ensures forall i :: 0 <= i < |s| && Allowed(s[i]) ==> r[i] == s[i]
    ensures forall i :: 0 <= i < |s| && !Allowed(s[i]) ==> r[i] == '_'
    decreases |s|
  {
    if s == [] then []
    else SanitizeString(s[..|s| - 1]) + [SanitizeChar(s[|s| - 1])]
  }

  /** Sanitising leaves a string unchanged exactly when it is already
      sanitised; in particular sanitising twice is sanitising once. */
  lemma SanitizeFixedPoints(s: string)
    ensures SanitizeString(s) == s <==> IsSanitized(s)
    ensures SanitizeString(SanitizeString(s)) == SanitizeString(s)
  {
    var r := SanitizeString(s);
    if IsSanitized(s) {
      assert forall i :: 0 <= i < |s| ==> r[i] == s[i];
    }
    var rr := SanitizeString(r);
    assert forall i :: 0 <= i < |r| ==> rr[i] == r[i];
  }

  /** The keys of a map after sanitising. */
  function SanitizedKeys(tags: seq<Entry>): set<string>
  {
    if tags == [] then {}
    else SanitizedKeys(tags[..|tags| - 1]) + {SanitizeString(tags[|tags| - 1].key)}
  }

  /** The sanitised keys are exactly the images of the keys. */
  lemma {:induction false} SanitizedKeysImage(tags: seq<Entry>, key: string)
    ensures key in SanitizedKeys(tags) <==> exists k :: k in Keys(tags) && SanitizeString(k) == key
    decreases |tags|
  {
    if tags != [] {
      var init := tags[..|tags| - 1];
      SanitizedKeysImage(init, key);
      AppendEntry(init, tags[|tags| - 1]);
      assert tags == init + [tags[|tags| - 1]];
    }
  }

  /** Every key and value is sanitised. */
  predicate IsSanitizedDict(d: seq<Entry>)
  {
    forall e :: e in d ==> IsSanitized(e.key) && IsSanitized(e.value)
  }

  /** No other key of `tags` sanitises to the same string as `k`. */
  predicate Unclashing(tags: Dict, k: string)
  {
    forall j :: j in Keys(tags) && j != k ==> SanitizeString(j) != SanitizeString(k)
  }

  /** sanitizeMap: a fresh map whose keys and values are the sanitised keys
      and values of `tags`. When two keys sanitise alike, the one visited
      last wins; the values it keeps are stated by SanitizeMapSpec. */
  function SanitizeMap(tags: Dict): (r: Dict)
    ensures Keys(r) == SanitizedKeys(tags)
    ensures IsSanitizedDict(r)
    decreases |tags|
  {
    if tags == [] then []
    else
      var init, last := tags[..|tags| - 1], tags[|tags| - 1];
      PutSanitized(SanitizeMap(init), SanitizeString(last.key), SanitizeString(last.value));
      Put(SanitizeMap(init), SanitizeString(last.key), SanitizeString(last.value))
  }

  /** The sanitised map has exactly the sanitised keys, holds only
      sanitised strings, and a key that clashes with no other key keeps its
      own (sanitised) value. */
  lemma {:induction false} SanitizeMapSpec(tags: Dict)
    ensures Keys(SanitizeMap(tags)) == SanitizedKeys(tags)
    ensures IsSanitizedDict(SanitizeMap(tags))
    ensures forall k :: k in Keys(tags) && Unclashing(tags, k) ==>
              Get(SanitizeMap(tags), SanitizeString(k)) == Some(SanitizeString(Get(tags, k).value))
    decreases |tags|
  {
    if tags != [] {
      var init, last := tags[..|tags| - 1], tags[|tags| - 1];
      var prev := SanitizeMap(init);
      SanitizeMapSpec(init);
      PutSanitized(prev, SanitizeString(last.key), SanitizeString(last.value));
      SanitizeMapLookupStep(tags, prev, SanitizeMap(tags));
    }
  }

  /** The lookup half of the inductive step of SanitizeMap: a key that
      clashes with no other gets the sanitised value of its own entry. */
  lemma SanitizeMapLookupStep(tags: Dict, prev: Dict, r: Dict)
    requires tags != []
    requires forall k :: k in Keys(tags[..|tags| - 1]) && Unclashing(tags[..|tags| - 1], k) ==>
               Get(prev, SanitizeString(k)) == Some(SanitizeString(Get(tags[..|tags| - 1], k).value))
    requires r == Put(prev, SanitizeString(tags[|tags| - 1].key), SanitizeString(tags[|tags| - 1].value))
    ensures forall k :: k in Keys(tags) && Unclashing(tags, k) ==>
              Get(r, SanitizeString(k)) == Some(SanitizeString(Get(tags, k).value))
  {
    forall k | k in Keys(tags) && Unclashing(tags, k)
      ensures Get(r, SanitizeString(k)) == Some(SanitizeString(Get(tags, k).value))
    {
      if k != tags[|tags| - 1].key {
        UnclashingInit(tags, k);
      }
    }
  }

  /** Writing a sanitised entry into a sanitised map keeps it sanitised. */
  lemma PutSanitized(d: Dict, k: string, v: string)
    requires IsSanitizedDict(d) && IsSanitized(k) && IsSanitized(v)
    ensures IsSanitizedDict(Put(d, k, v))
  {
    var r := Put(d, k, v);
    forall e | e in r
      ensures IsSanitized(e.key) && IsSanitized(e.value)
    {
      if e != Entry(k, v) {
        assert e in d;
      }
    }
  }

  /** A key that clashes with no other key of `tags` clashes with none of
      the keys before the last one either. */
  lemma UnclashingInit(tags: Dict, k: string)
    requires tags != []
    requires k in Keys(tags) && Unclashing(tags, k) && k != tags[|tags| - 1].key
    ensures k in Keys(tags[..|tags| - 1]) && Unclashing(tags[..|tags| - 1], k)
    ensures SanitizeString(tags[|tags| - 1].key) != SanitizeString(k)
    ensures Get(tags, k) == Get(tags[..|tags| - 1], k)
  {
    var init, last := tags[..|tags| - 1], tags[|tags| - 1];
    AppendEntry(init, last);
    assert tags == init + [last];
  }

  /** NewAtlasClient: the common tags are sanitised once, at construction. */
  function NewAtlasClient(uri: string, commonTags: Dict): (c: AtlasClient)
    ensures c.uri == uri
    ensures IsSanitizedDict(c.commonTags)
    ensures Keys(c.commonTags) == SanitizedKeys(commonTags)
    ensures forall k :: k in Keys(commonTags) && Unclashing(commonTags, k) ==>
              Get(c.commonTags, SanitizeString(k)) == Some(SanitizeString(Get(commonTags, k).value))
  {
    SanitizeMapSpec(commonTags);
    AtlasClient(uri, SanitizeMap(commonTags))
  }

  /** A datapoint with its tag map sanitised, as built inside the batching loop. */
  function SanitizeMetric(m: Metric): Metric
  {
    Metric(SanitizeMap(m.tags), m.timestamp, m.value)
  }

  /** Every datapoint of `ms` sanitised, position by position. */
  function SanitizeAll(ms: seq<Metric>): (r: seq<Metric>)
    ensures |r| == |ms|
  {
    seq(|ms|, i requires 0 <= i < |ms| => SanitizeMetric(ms[i]))
  }

  /** Sanitising one more datapoint appends its sanitised copy. */
  lemma SanitizeAllAppend(ms: seq<Metric>, m: Metric)
    ensures SanitizeAll(ms + [m]) == SanitizeAll(ms) + [SanitizeMetric(m)]
  {
  }

  /** Sanitising keeps timestamps and values and cleans every tag map. */
  lemma SanitizeAllClean(ms: seq<Metric>)
    ensures forall j :: 0 <= j < |ms| ==>
              && IsSanitizedDict(SanitizeAll(ms)[j].tags)
              && SanitizeAll(ms)[j].timestamp == ms[j].timestamp
              && SanitizeAll(ms)[j].value == ms[j].value
  {
    forall j | 0 <= j < |ms|
      ensures IsSanitizedDict(SanitizeAll(ms)[j].tags)
    {
      SanitizeMapSpec(ms[j].tags);
    }
  }

  // ---------------------------------------------------------------------
  // Filtering and the envelope
  // ---------------------------------------------------------------------

  /** The datapoints standard JSON can carry. */
  predicate HasFiniteValue(m: Metric)
  {
    IsFinite(m.value)
  }

  /** filterNumbers: drops the NaN and infinite datapoints, keeping the order
      of the rest. */
  function FilterNumbers(ms: seq<Metric>): (r: seq<Metric>)
    ensures |r| <= |ms|
    ensures forall m :: m in r <==> m in ms && IsFinite(m.value)
    ensures (forall i :: 0 <= i < |ms| ==> IsFinite(ms[i].value)) ==> r == ms
  {
    forall m ensures m in Filter(ms, HasFiniteValue) <==> m in ms && HasFiniteValue(m) {
      FilterMembership(ms, HasFiniteValue, m);
    }
    Filter(ms, HasFiniteValue)
  }

  /** The kept datapoints keep their relative order. */
  lemma FilterNumbersConcat(a: seq<Metric>, b: seq<Metric>)
    ensures FilterNumbers(a + b) == FilterNumbers(a) + FilterNumbers(b)
  {
    FilterConcat(a, b, HasFiniteValue);
  }

  /** A single finite datapoint passes the filter. */
  lemma FilterNumbersSingleton(m: Metric)
    requires IsFinite(m.value)
    ensures FilterNumbers([m]) == [m]
  {
  }

  /** sendToAtlas: the envelope posted for one batch, pairing the client's
      common tags with the finite datapoints of the batch. */
  function SendToAtlas(client: AtlasClient, ms: seq<Metric>): (b: MetricBatch)
    ensures b.tags == client.commonTags
    ensures forall m :: m in b.metrics <==> m in ms && IsFinite(m.value)
    ensures b.metrics == FilterNumbers(ms)
  {
    MetricBatch(client.commonTags, FilterNumbers(ms))
  }

  // ---------------------------------------------------------------------
  // Batching
  // ---------------------------------------------------------------------

  /** The number of iterations of the batching loop over `n` datapoints:
      `i` runs over 0, 10000, 20000, ... while `i < n`. */
  function BatchCount(n: nat): (c: nat)
    ensures 10000 * c < n + 10000
    ensures n <= 10000 * c
    decreases n
  {
    if n == 0 then 0 else 1 + BatchCount(if n <= 10000 then 0 else n - 10000)
  }

  /** The loop posts the ceiling of n / 10000 batches. */
  lemma BatchCountIsCeiling(n: nat)
    ensures BatchCount(n) == (n + 10000 - 1) / 10000
  {
    var c := BatchCount(n);
    assert 10000 * c <= n + 10000 - 1 < 10000 * c + 10000;
  }

  /** The size of batch `k` before filtering: `min(i + 10000, n) - i` with
      `i = 10000 * k`. */
  function BatchLength(n: nat, k: nat): (len: nat)
    requires k < BatchCount(n)
    ensures 0 < len <= 10000
    ensures len == Min(10000, n - 10000 * k)
    ensures k + 1 < BatchCount(n) ==> len == 10000
  {
    Min(10000 * k + 10000, n) - 10000 * k
  }

  /** Batch `k` as the loop in publish builds it: it ranges over the indices
      of `metrics[i:end]` but reads `metrics[j]`, so every batch holds the
      sanitised HEAD of the input, of the length the slice has. */
  function AsWrittenBatch(metrics: seq<Metric>, k: nat): (b: seq<Metric>)
    requires k < BatchCount(|metrics|)
    ensures |b| == BatchLength(|metrics|, k)
  {
    SanitizeAll(metrics[..BatchLength(|metrics|, k)])
  }

  /** Batch `k` as the comment on publish describes it: the sanitised slice
      `metrics[i:end]`. */
  function IntendedBatch(metrics: seq<Metric>, k: nat): (b: seq<Metric>)
    requires k < BatchCount(|metrics|)
    ensures |b| == BatchLength(|metrics|, k)
  {
    var lo := 10000 * k;
    SanitizeAll(metrics[lo .. lo + BatchLength(|metrics|, k)])
  }

  /** A loop index `i = 10000 * c` below `n` starts batch `c`, which ends at
      `min(i + 10000, n)`. */
  lemma BatchStarts(n: nat, c: nat)
    requires 10000 * c < n
    ensures c < BatchCount(n)
    ensures Min(10000 * c + 10000, n) - 10000 * c == BatchLength(n, c)
  {
  }

  /** The loop stops after exactly BatchCount batches. */
  lemma BatchCountExact(n: nat, c: nat)
    requires n <= 10000 * c < n + 10000
    ensures c == BatchCount(n)
  {
  }

  /** Every datapoint posted for a sanitised batch has sanitised tags and a
      finite value. */
  lemma PostedDatapointsClean(client: AtlasClient, ms: seq<Metric>)
    ensures forall m :: m in SendToAtlas(client, SanitizeAll(ms)).metrics ==>
              IsSanitizedDict(m.tags) && IsFinite(m.value)
  {
    SanitizeAllClean(ms);
  }

  /** The inner loop of publish as written: `for j := range metrics[i:end]`
      fills slot `j` from `metrics[j]`, so the copy is the sanitised head of
      the input, as long as the slice. */
  method CopyBatchAsWritten(metrics: seq<Metric>, i: nat, end: nat) returns (batch: seq<Metric>)
    requires i <= end <= |metrics|
    ensures batch == SanitizeAll(metrics[..end - i])
  {
    batch := [];
    var j := 0;
    while j < end - i
      invariant 0 <= j <= end - i
      invariant batch == SanitizeAll(metrics[..j])
    {
      assert metrics[..j + 1] == metrics[..j] + [metrics[j]];
      SanitizeAllAppend(metrics[..j], metrics[j]);
      batch := batch + [SanitizeMetric(metrics[j])];
      j := j + 1;
    }
  }

  /** The inner loop reading `metrics[i + j]`: the sanitised slice. */
  method CopyBatch(metrics: seq<Metric>, i: nat, end: nat) returns (batch: seq<Metric>)
    requires i <= end <= |metrics|
    ensures batch == SanitizeAll(metrics[i..end])
  {
    batch := [];
    var j := 0;
    while j < end - i
      invariant 0 <= j <= end - i
      invariant batch == SanitizeAll(metrics[i .. i + j])
    {
      assert metrics[i .. i + j + 1] == metrics[i .. i + j] + [metrics[i + j]];
      SanitizeAllAppend(metrics[i .. i + j], metrics[i + j]);
      batch := batch + [SanitizeMetric(metrics[i + j])];
      j := j + 1;
    }
  }

  /** One pass of the batching loop as written: at `i = 10000 * c` it copies
      batch `c`. */
  lemma AsWrittenStep(metrics: seq<Metric>, c: nat, i: nat, end: nat, batch: seq<Metric>)
    requires i == 10000 * c < |metrics|
    requires end == Min(i + 10000, |metrics|)
    requires batch == SanitizeAll(metrics[..end - i])
    ensures c < BatchCount(|metrics|)
    ensures batch == AsWrittenBatch(metrics, c)
  {
    BatchStarts(|metrics|, c);
  }

  /** One pass of the batching loop reading `metrics[i + j]`. */
  lemma IntendedStep(metrics: seq<Metric>, c: nat, i: nat, end: nat, batch: seq<Metric>)
    requires i == 10000 * c < |metrics|
    requires end == Min(i + 10000, |metrics|)
    requires batch == SanitizeAll(metrics[i..end])
    ensures c < BatchCount(|metrics|)
    ensures batch == IntendedBatch(metrics, c)
  {
    BatchStarts(|metrics|, c);
  }

  /** Every envelope built from as-written batches carries only finite
      datapoints with sanitised tags. */
  lemma AsWrittenEnvelopesClean(client: AtlasClient, metrics: seq<Metric>, k: nat)
    requires k < BatchCount(|metrics|)
    ensures forall m :: m in SendToAtlas(client, AsWrittenBatch(metrics, k)).metrics ==>
              IsSanitizedDict(m.tags) && IsFinite(m.value)
  {
    PostedDatapointsClean(client, metrics[..BatchLength(|metrics|, k)]);
  }

  /** The envelopes posted for a sequence of batches, one per batch. */
  function Envelopes(client: AtlasClient, batches: seq<seq<Metric>>): (r: seq<MetricBatch>)
    ensures |r| == |batches|
    decreases |batches|
  {
    if batches == [] then []
    else Envelopes(client, batches[..|batches| - 1]) + [SendToAtlas(client, batches[|batches| - 1])]
  }

  /** Envelope `k` is the one built from batch `k`. */
  lemma {:induction false} EnvelopeAt(client: AtlasClient, batches: seq<seq<Metric>>, k: nat)
    requires k < |batches|
    ensures Envelopes(client, batches)[k] == SendToAtlas(client, batches[k])
    decreases |batches|
  {
    var init := batches[..|batches| - 1];
    if k < |init| {
      EnvelopeAt(client, init, k);
      assert init[k] == batches[k];
    }
  }

  /** Posting one more batch appends its envelope. */
  lemma EnvelopesAppend(client: AtlasClient, batches: seq<seq<Metric>>, b: seq<Metric>)
    ensures Envelopes(client, batches + [b]) == Envelopes(client, batches) + [SendToAtlas(client, b)]
  {
    assert (batches + [b])[..|batches|] == batches;
  }

  /** The first `c` batches of the loop as written, in posting order. */
  function AsWrittenBatches(metrics: seq<Metric>, c: nat): (r: seq<seq<Metric>>)
    requires c <= BatchCount(|metrics|)
    ensures |r| == c
  {
    if c == 0 then [] else AsWrittenBatches(metrics, c - 1) + [AsWrittenBatch(metrics, c - 1)]
  }

  /** Batch `k` among the first `c` is the `k`-th pass's batch. */
  lemma {:induction false} AsWrittenBatchesAt(metrics: seq<Metric>, c: nat, k: nat)
    requires k < c <= BatchCount(|metrics|)
    ensures AsWrittenBatches(metrics, c)[k] == AsWrittenBatch(metrics, k)
  {
    if k < c - 1 {
      AsWrittenBatchesAt(metrics, c - 1, k);
    }
  }

  /** The first `c` batches of the loop reading `metrics[i + j]`. */
  function IntendedBatches(metrics: seq<Metric>, c: nat): (r: seq<seq<Metric>>)
    requires c <= BatchCount(|metrics|)
    ensures |r| == c
  {
    if c == 0 then [] else IntendedBatches(metrics, c - 1) + [IntendedBatch(metrics, c - 1)]
  }

  /** Batch `k` among the first `c` is the `k`-th pass's batch. */
  lemma {:induction false} IntendedBatchesAt(metrics: seq<Metric>, c: nat, k: nat)
    requires k < c <= BatchCount(|metrics|)
    ensures IntendedBatches(metrics, c)[k] == IntendedBatch(metrics, k)
  {
    if k < c - 1 {
      IntendedBatchesAt(metrics, c - 1, k);
    }
  }

  /** publish, with the post as a sink: returns the envelopes posted, in
      order. An empty input posts nothing; otherwise one envelope per batch
      of at most 10000 datapoints, each holding the finite datapoints of the
      batch with sanitised tags. The batches are the ones the Go loop
      builds, see AsWrittenBatch. */
  method Publish(client: AtlasClient, metrics: seq<Metric>) returns (posted: seq<MetricBatch>)
    ensures |metrics| == 0 ==> posted == []
    ensures |posted| == BatchCount(|metrics|)
    ensures posted == Envelopes(client, AsWrittenBatches(metrics, BatchCount(|metrics|)))
    ensures forall k :: 0 <= k < |posted| ==>
              posted[k] == SendToAtlas(client, AsWrittenBatch(metrics, k))
    ensures forall k, m :: 0 <= k < |posted| && m in posted[k].metrics ==>
              IsSanitizedDict(m.tags) && IsFinite(m.value)
  {
    var n := |metrics|;
    posted := [];
    if n == 0 {
      // empty metric list, nothing to send
      return;
    }
    var i := 0;
    ghost var c := 0;
    ghost var batches := [];
    while i < n
      invariant i == 10000 * c
      invariant i - 10000 < n
      invariant c <= BatchCount(n)
      invariant batches == AsWrittenBatches(metrics, c)
      invariant posted == Envelopes(client, batches)
    {
      var end := Min(i + MetricBatchSize, n);
      var batch := CopyBatchAsWritten(metrics, i, end);
      AsWrittenStep(metrics, c, i, end, batch);
      EnvelopesAppend(client, batches, batch);
      batches := batches + [batch];
      posted := posted + [SendToAtlas(client, batch)];
      i := i + MetricBatchSize;
      c := c + 1;
    }
    BatchCountExact(n, c);
    forall k | 0 <= k < |posted|
      ensures posted[k] == SendToAtlas(client, AsWrittenBatch(metrics, k))
      ensures forall m :: m in posted[k].metrics ==> IsSanitizedDict(m.tags) && IsFinite(m.value)
    {
      EnvelopeAt(client, batches, k);
      AsWrittenBatchesAt(metrics, c, k);
      AsWrittenEnvelopesClean(client, metrics, k);
    }
  }

  /** publish with the loop reading `metrics[i + j]`: the batches are the
      consecutive slices of the input. */
  method PublishIntended(client: AtlasClient, metrics: seq<Metric>) returns (posted: seq<MetricBatch>)
    ensures |metrics| == 0 ==> posted == []
    ensures |posted| == BatchCount(|metrics|)
    ensures posted == Envelopes(client, IntendedBatches(metrics, BatchCount(|metrics|)))
    ensures forall k :: 0 <= k < |posted| ==>
              posted[k] == SendToAtlas(client, IntendedBatch(metrics, k))
  {
    var n := |metrics|;
    posted := [];
    if n == 0 {
      return;
    }
    var i := 0;
    ghost var c := 0;
    ghost var batches := [];
    while i < n
      invariant i == 10000 * c
      invariant i - 10000 < n
      invariant c <= BatchCount(n)
      invariant batches == IntendedBatches(metrics, c)
      invariant posted == Envelopes(client, batches)
    {
      var end := Min(i + MetricBatchSize, n);
      var batch := CopyBatch(metrics, i, end);
      IntendedStep(metrics, c, i, end, batch);
      EnvelopesAppend(client, batches, batch);
      batches := batches + [batch];
      posted := posted + [SendToAtlas(client, batch)];
      i := i + MetricBatchSize;
      c := c + 1;
    }
    BatchCountExact(n, c);
    forall k | 0 <= k < |posted|
      ensures posted[k] == SendToAtlas(client, IntendedBatch(metrics, k))
    {
      EnvelopeAt(client, batches, k);
      IntendedBatchesAt(metrics, c, k);
    }
  }

  // ---------------------------------------------------------------------
  // What the batching loop posts
  // ---------------------------------------------------------------------

  /** Sanitising a concatenation sanitises each part. */
  lemma SanitizeAllSplit(ms: seq<Metric>, mid: nat, hi: nat)
    requires mid <= hi <= |ms|
    ensures SanitizeAll(ms[..mid]) + SanitizeAll(ms[mid..hi]) == SanitizeAll(ms[..hi])
  {
  }

  /** The first `c` intended batches, put together, are the sanitised
      datapoints up to index `10000 * c`. */
  lemma {:induction false} IntendedBatchesPrefix(metrics: seq<Metric>, c: nat)
    requires c <= BatchCount(|metrics|)
    ensures Flatten(IntendedBatches(metrics, c)) == SanitizeAll(metrics[..Min(10000 * c, |metrics|)])
  {
    if c == 0 {
      assert IntendedBatches(metrics, 0) == [];
    } else {
      var prev := IntendedBatches(metrics, c - 1);
      var last := IntendedBatch(metrics, c - 1);
      assert IntendedBatches(metrics, c) == prev + [last];
      IntendedBatchesPrefix(metrics, c - 1);
      FlattenAppend(prev, last);
      var lo := 10000 * (c - 1);
      var hi := Min(10000 * c, |metrics|);
      assert lo + BatchLength(|metrics|, c - 1) == hi;
      assert Min(lo, |metrics|) == lo;
      assert last == SanitizeAll(metrics[lo .. hi]);
      SanitizeAllSplit(metrics, lo, hi);
      calc {
        Flatten(IntendedBatches(metrics, c));
        Flatten(prev) + last;
        SanitizeAll(metrics[..lo]) + SanitizeAll(metrics[lo .. hi]);
        SanitizeAll(metrics[..hi]);
      }
    }
  }

  /** With the copy reading `metrics[i + j]`, the batches posted cover every
      datapoint exactly once and in order. */
  lemma IntendedBatchesCoverInput(metrics: seq<Metric>)
    ensures Flatten(IntendedBatches(metrics, BatchCount(|metrics|))) == SanitizeAll(metrics)
  {
    IntendedBatchesPrefix(metrics, BatchCount(|metrics|));
    assert metrics[..|metrics|] == metrics;
  }

  /** Up to 10000 datapoints go out in one batch holding all of them, as
      written as well as intended. */
  lemma SingleBatch(metrics: seq<Metric>)
    requires 0 < |metrics| <= 10000
    ensures BatchCount(|metrics|) == 1
    ensures AsWrittenBatch(metrics, 0) == SanitizeAll(metrics)
    ensures IntendedBatch(metrics, 0) == SanitizeAll(metrics)
  {
    assert metrics[..|metrics|] == metrics;
    assert metrics[0..|metrics|] == metrics;
  }

  /** The first batch is the same either way. */
  lemma FirstBatchAgrees(metrics: seq<Metric>)
    requires 0 < |metrics|
    ensures AsWrittenBatch(metrics, 0) == IntendedBatch(metrics, 0)
  {
    assert metrics[..BatchLength(|metrics|, 0)] == metrics[0 .. BatchLength(|metrics|, 0)];
  }

  /** Past 10000 datapoints the loop as written posts the head of the input
      again: the second batch starts with datapoint 0 where datapoint 10000
      belongs. */
  lemma AsWrittenRepeatsHead(metrics: seq<Metric>)
    requires |metrics| > 10000
    ensures BatchCount(|metrics|) >= 2
    ensures forall j :: 0 <= j < BatchLength(|metrics|, 1) ==>
              AsWrittenBatch(metrics, 1)[j] == SanitizeMetric(metrics[j])
    ensures forall j :: 0 <= j < BatchLength(|metrics|, 1) ==>
              IntendedBatch(metrics, 1)[j] == SanitizeMetric(metrics[10000 + j])
  {
    var n := |metrics|;
    assert BatchCount(n) >= 2;
    var len := BatchLength(n, 1);
    var head, slice := metrics[..len], metrics[10000 .. 10000 + len];
    assert AsWrittenBatch(metrics, 1) == SanitizeAll(head);
    assert IntendedBatch(metrics, 1) == SanitizeAll(slice);
    forall j | 0 <= j < len
      ensures AsWrittenBatch(metrics, 1)[j] == SanitizeMetric(metrics[j])
      ensures IntendedBatch(metrics, 1)[j] == SanitizeMetric(metrics[10000 + j])
    {
      assert head[j] == metrics[j] && slice[j] == metrics[10000 + j];
    }
  }

  /** With 10001 datapoints the loop as written posts datapoint 0 a second
      time and never posts datapoint 10000: when the two carry finite values
      and different timestamps, the envelopes differ from the intended ones. */
  lemma AsWrittenLosesDatapoints(client: AtlasClient, metrics: seq<Metric>)
    requires |metrics| == 10001
    requires IsFinite(metrics[0].value) && IsFinite(metrics[10000].value)
    requires metrics[0].timestamp != metrics[10000].timestamp
    ensures BatchCount(|metrics|) == 2
    ensures AsWrittenBatch(metrics, 1) == [SanitizeMetric(metrics[0])]
    ensures IntendedBatch(metrics, 1) == [SanitizeMetric(metrics[10000])]
    ensures Envelopes(client, AsWrittenBatches(metrics, 2)) != Envelopes(client, IntendedBatches(metrics, 2))
  {
    AsWrittenRepeatsHead(metrics);
    var x, y := SanitizeMetric(metrics[0]), SanitizeMetric(metrics[10000]);
    assert AsWrittenBatch(metrics, 1) == [x];
    assert IntendedBatch(metrics, 1) == [y];
    FilterNumbersSingleton(x);
    FilterNumbersSingleton(y);
    EnvelopeAt(client, AsWrittenBatches(metrics, 2), 1);
    EnvelopeAt(client, IntendedBatches(metrics, 2), 1);
    AsWrittenBatchesAt(metrics, 2, 1);
    IntendedBatchesAt(metrics, 2, 1);
    assert Envelopes(client, AsWrittenBatches(metrics, 2))[1].metrics == [x];
    assert Envelopes(client, IntendedBatches(metrics, 2))[1].metrics == [y];
  }
}

=== FILE: dicts.dfy ===
/** Go's `map[string]string`, modelled as an association list with distinct
    keys. The order of the list is the order in which a `for k, v := range m`
    loop visits the entries: Go leaves that order unspecified, the model fixes
    one. Writing a key removes its old entry and appends the new one. */
module Dicts {
  import opened Options

  datatype Entry = Entry(key: string, value: string)

  /** The keys of an association list. */
  function Keys(d: seq<Entry>): set<string>
  {
    if d == [] then {} else Keys(d[..|d| - 1]) + {d[|d| - 1].key}
  }

  /** No key appears twice. */
  predicate Distinct(d: seq<Entry>)
  {
    d == [] || (Distinct(d[..|d| - 1]) && d[|d| - 1].key !in Keys(d[..|d| - 1]))
  }

  /** A Go string map. */
  type Dict = d: seq<Entry> | Distinct(d)

  /** Map lookup; `None` for a missing key. */
  function Get(d: seq<Entry>, k: string): (r: Option<string>)
    ensures r.Some? <==> k in Keys(d)
    ensures r.Some? ==> Entry(k, r.value) in d
  {
    if d == [] then None
    else if d[|d| - 1].key == k then Some(d[|d| - 1].value)
    else Get(d[..|d| - 1], k)
  }

  /** Go's `m[k]` expression: the zero value `dflt` for a missing key. */
  function GetOr(d: seq<Entry>, k: string, dflt: string): (r: string)
    ensures k in Keys(d) ==> Some(r) == Get(d, k)
    ensures k !in Keys(d) ==> r == dflt
  {
    match Get(d, k)
    case Some(v) => v
    case None => dflt
  }

  /** Appending one entry: its key joins the keys and wins every lookup of it. */
  lemma AppendEntry(d: seq<Entry>, e: Entry)
    ensures Keys(d + [e]) == Keys(d) + {e.key}
    ensures Distinct(d + [e]) <==> Distinct(d) && e.key !in Keys(d)
    ensures forall j :: Get(d + [e], j) == if j == e.key then Some(e.value) else Get(d, j)
  {
    assert (d + [e])[..|d|] == d;
  }

  /** The list without the entry for `k`. */
  function Remove(d: Dict, k: string): (r: Dict)
    ensures Keys(r) == Keys(d) - {k}
    ensures forall j :: j != k ==> Get(r, j) == Get(d, j)
    ensures forall e :: e in r ==> e in d
    decreases |d|
  {
    if d == [] then []
    else
      var init, last := d[..|d| - 1], d[|d| - 1];
      assert Distinct(init) && last.key !in Keys(init);
      var rest := Remove(init, k);
      AppendEntry(init, last);
      assert d == init + [last];
      if last.key == k then
        rest
      else
        AppendEntry(rest, last);
        rest + [last]
  }

  /** Go's assignment `m[k] = v`. */
  function Put(d: Dict, k: string, v: string): (r: Dict)
    ensures Keys(r) == Keys(d) + {k}
    ensures Get(r, k) == Some(v)
    ensures forall j :: j != k ==> Get(r, j) == Get(d, j)
    ensures forall e :: e in r ==> e in d || e == Entry(k, v)
  {
    var rest := Remove(d, k);
    AppendEntry(rest, Entry(k, v));
    rest + [Entry(k, v)]
  }

  /** The keys of two lists put together are the keys of either. */
  lemma {:induction false} KeysConcat(a: seq<Entry>, b: seq<Entry>)
    ensures Keys(a + b) == Keys(a) + Keys(b)
    decreases |b|
  {
    if b == [] {
      assert a + b == a;
    } else {
      var init, last := b[..|b| - 1], b[|b| - 1];
      KeysConcat(a, init);
      assert a + b == (a + init) + [last];
      AppendEntry(a + init, last);
    }
  }

  /** The value the last write of `k` in a list of writes stores, if any. */
  function LastWrite(writes: seq<Entry>, k: string): (r: Option<string>)
    ensures r.Some? ==> Entry(k, r.value) in writes
  {
    if writes == [] then None
    else if writes[|writes| - 1].key == k then Some(writes[|writes| - 1].value)
    else LastWrite(writes[..|writes| - 1], k)
  }

  /** A later batch of writes wins over an earlier one. */
  lemma {:induction false} LastWriteAppend(first: seq<Entry>, second: seq<Entry>, k: string)
    ensures LastWrite(first + second, k) ==
              if LastWrite(second, k).Some? then LastWrite(second, k) else LastWrite(first, k)
    decreases |second|
  {
    if second != [] {
      var both := first + second;
      assert both[..|both| - 1] == first + second[..|second| - 1];
      assert both[|both| - 1] == second[|second| - 1];
      LastWriteAppend(first, second[..|second| - 1], k);
    } else {
      assert first + second == first;
    }
  }

  /** A sequence of assignments `m[k] = v`, applied in order. */
  function PutAll(d: Dict, writes: seq<Entry>): (r: Dict)
    ensures Keys(r) == Keys(d) + Keys(writes)
  {
    if writes == [] then d
    else
      var last := writes[|writes| - 1];
      Put(PutAll(d, writes[..|writes| - 1]), last.key, last.value)
  }

  /** After a sequence of assignments, a key holds the value of its last
      write, or its old value when no write touched it. */
  lemma {:induction false} PutAllGet(d: Dict, writes: seq<Entry>, k: string)
    ensures Get(PutAll(d, writes), k) ==
              if LastWrite(writes, k).Some? then LastWrite(writes, k) else Get(d, k)
  {
    if writes != [] {
      PutAllGet(d, writes[..|writes| - 1], k);
    }
  }

  /** Every entry after a sequence of assignments was there before or was
      written. */
  lemma {:induction false} PutAllEntries(d: Dict, writes: seq<Entry>, e: Entry)
    requires e in PutAll(d, writes)
    ensures e in d || e in writes
  {
    if writes != [] {
      var init := writes[..|writes| - 1];
      if e != writes[|writes| - 1] {
        PutAllEntries(d, init, e);
      }
    }
  }
}

=== FILE: examples.dfy ===
/** The expected outputs of the repository's unit tests. Most instantiate
    the general lemmas of the model; the simplest (and the sanitising
    examples, through small helper lemmas) evaluate the definitions on
    literal strings. Inputs are parameters fixed by `requires`, which keeps
    each proof small. */
module Examples {
  import opened Options
  import opened Dicts
  import opened Floats
  import opened Text
  import Seqs
  import opened Atlas
  import Client

  // ---------------------------------------------------------------------
  // substitute
  // ---------------------------------------------------------------------

  /** With no variables the pattern comes back unchanged. */
  lemma SubstituteNoMatch(pattern: string)
    requires pattern == "no matches {foo}"
    ensures Substitute(pattern, []) == pattern
  {
  }

  /** With a nested placeholder the result depends on the order the
      variables are visited in: `{{0}}` over `0 = x` and `x = VAL` becomes
      `VAL` when `0` comes first and `{x}` when `x` comes first. */
  lemma SubstituteOrderMatters(pattern: string, a: seq<Entry>, b: seq<Entry>)
    requires pattern == "{{0}}"
    requires a == [Entry("0", "x"), Entry("x", "VAL")] && b == [Entry("x", "VAL"), Entry("0", "x")]
    ensures Substitute(pattern, a) == "VAL" && Substitute(pattern, b) == "{x}"
  {
    // `0` first: `{{0}}` -> `{x}` -> `VAL`.
    assert pattern[..3] == "{{0" && pattern[1..] == "{0}" + "}";
    ReplaceAllMissesHead(pattern, "{0}", "x");
    ReplaceAllMatchesHead("}", "{0}", "x");
    ReplaceAllShort("}", "{0}", "x");
    var once := ReplaceAll(pattern, "{0}", "x");
    assert once == "{x}";
    assert Placeholder("0") == "{0}" && Placeholder("x") == "{x}";
    var a1: seq<Entry> := [Entry("0", "x")];
    assert a1[..0] == [] && a[..1] == a1;
    assert Substitute(pattern, a1[..0]) == pattern;
    assert Substitute(pattern, a1) == ReplaceAll(pattern, "{0}", "x");
    assert a[..2] == a;
    ReplaceAllMatchesHead("", "{x}", "VAL");
    assert "{x}" + "" == "{x}";
    // `x` first: `{x}` does not occur, then `{{0}}` -> `{x}`.
    assert pattern[1..][..3] == "{0}" && pattern[2..] == "0}}" && pattern[2..][..3] == "0}}";
    assert pattern[1..][1..] == pattern[2..] && pattern[2..][1..] == "}}";
    assert !Occurs("{x}", pattern[2..][1..]);
    assert !Occurs("{x}", pattern[2..]);
    assert !Occurs("{x}", pattern[1..]);
    assert !Occurs("{x}", pattern);
    var b1: seq<Entry> := [Entry("x", "VAL")];
    assert b1[..0] == [] && b[..1] == b1;
    assert Substitute(pattern, b1[..0]) == pattern;
    assert Substitute(pattern, b1) == pattern;
    assert b[..2] == b;
  }

  /** The template `{foo} multi match {foo}`. */
  lemma RepeatedTemplate(t: seq<Piece>)
    requires t == [Hole("foo"), Text(" multi match "), Hole("foo")]
    ensures TemplateText(t) == "{foo} multi match {foo}" && WellFormed(t)
  {
    var foo := Placeholder("foo");
    assert t[1..][1..] == t[2..];
    assert TemplateText(t[2..]) == foo + TemplateText([]);
    assert TemplateText(t[1..]) == " multi match " + foo;
    assert TemplateText(t) == foo + " multi match " + foo;
  }

  /** Its meaning with `foo` bound to `bar`. */
  lemma RepeatedRender(t: seq<Piece>, vars: Dict)
    requires t == [Hole("foo"), Text(" multi match "), Hole("foo")] && vars == [Entry("foo", "bar")]
    ensures Render(t, vars) == "bar multi match bar"
  {
    assert Get(vars, "foo") == Some("bar");
    assert Render(t[2..], vars) == "bar";
    assert Render(t[1..], vars) == " multi match bar";
  }

  /** `foo` bound to `bar`, with no brace anywhere. */
  lemma FooBar(vars: Dict)
    requires vars == [Entry("foo", "bar")]
    ensures BraceFreeVars(vars)
  {
  }

  /** Every occurrence of a bound variable is replaced. */
  lemma SubstituteRepeated(pattern: string, vars: Dict)
    requires pattern == "{foo} multi match {foo}" && vars == [Entry("foo", "bar")]
    ensures Substitute(pattern, vars) == "bar multi match bar"
  {
    var t := [Hole("foo"), Text(" multi match "), Hole("foo")];
    RepeatedTemplate(t);
    RepeatedRender(t, vars);
    FooBar(vars);
    SubstituteRenders(t, vars);
  }

  /** The template `multi var {foo}.{0}`. */
  lemma SeveralTemplate(t: seq<Piece>)
    requires t == [Text("multi var "), Hole("foo"), Text("."), Hole("0")]
    ensures TemplateText(t) == "multi var {foo}.{0}" && WellFormed(t)
  {
    assert TemplateText(t[3..]) == "{0}";
    assert TemplateText(t[2..]) == ".{0}";
    assert TemplateText(t[1..]) == "{foo}.{0}";
  }

  /** The variables of that test. */
  lemma SeveralVars(vars: Dict)
    requires vars == [Entry("foo", "bar"), Entry("0", "positional")]
    ensures Get(vars, "foo") == Some("bar") && Get(vars, "0") == Some("positional")
  {
    assert vars[..1] == [Entry("foo", "bar")];
  }

  /** No brace in those variables. */
  lemma SeveralVarsBraceFree(vars: Dict)
    requires vars == [Entry("foo", "bar"), Entry("0", "positional")]
    ensures BraceFreeVars(vars)
  {
  }

  /** Its meaning with `foo` and `0` bound. */
  lemma SeveralRender(t: seq<Piece>, vars: Dict)
    requires t == [Text("multi var "), Hole("foo"), Text("."), Hole("0")]
    requires vars == [Entry("foo", "bar"), Entry("0", "positional")]
    ensures Render(t, vars) == "multi var bar.positional"
  {
    SeveralVars(vars);
    assert Render(t[3..], vars) == "positional";
    assert Render(t[2..], vars) == ".positional";
    assert Render(t[1..], vars) == "bar.positional";
  }

  /** Several variables in one pattern are all replaced. */
  lemma SubstituteSeveral(pattern: string, vars: Dict)
    requires pattern == "multi var {foo}.{0}" && vars == [Entry("foo", "bar"), Entry("0", "positional")]
    ensures Substitute(pattern, vars) == "multi var bar.positional"
  {
    var t := [Text("multi var "), Hole("foo"), Text("."), Hole("0")];
    SeveralTemplate(t);
    SeveralRender(t, vars);
    SeveralVarsBraceFree(vars);
    SubstituteRenders(t, vars);
  }

  // ---------------------------------------------------------------------
  // createAtlasTags
  // ---------------------------------------------------------------------

  /** The namespace `test.foo` of the tests. */
  lemma TestFoo(ns: Namespace)
    requires ns == [Static("test"), Static("foo")]
    ensures BraceFreeNamespace(ns) && PlainNames(ns)
    ensures forall l :: 0 <= l < |ns| ==> !(ns[l].Dynamic? && ns[l].name == "namespace")
  {
  }

  /** Its dotted name. */
  lemma TestFooName(ns: Namespace)
    requires ns == [Static("test"), Static("foo")]
    ensures DottedName(ns) == "test.foo"
  {
    var vs := Values(ns);
    assert vs == ["test", "foo"];
    assert Join(vs[1..], ".") == "foo";
  }

  /** `{-1}` is the last element. */
  lemma TestFooLast(ns: Namespace)
    requires ns == [Static("test"), Static("foo")]
    ensures Get(NamespaceVars(ns), "-1") == Some("foo")
  {
    TestFoo(ns);
    assert IntToString(-1) == "-1";
    PositionalVarsPlain(ns, 1);
  }

  /** `{-2}` is the first element. */
  lemma TestFooFirst(ns: Namespace)
    requires ns == [Static("test"), Static("foo")]
    ensures Get(NamespaceVars(ns), "-2") == Some("test")
  {
    TestFoo(ns);
    assert IntToString(-2) == "-2";
    PositionalVarsPlain(ns, 0);
  }

  /** The template `{-1}.{-2}`. */
  lemma FromEndTemplate(t: seq<Piece>)
    requires t == [Hole("-1"), Text("."), Hole("-2")]
    ensures TemplateText(t) == "{-1}.{-2}" && WellFormed(t)
  {
    assert TemplateText(t[2..]) == "{-2}";
    assert TemplateText(t[1..]) == ".{-2}";
  }

  /** Its meaning over variables that bind `-1` and `-2`. */
  lemma FromEndRender(t: seq<Piece>, vars: Dict)
    requires t == [Hole("-1"), Text("."), Hole("-2")]
    requires Get(vars, "-1") == Some("foo") && Get(vars, "-2") == Some("test")
    ensures Render(t, vars) == "foo.test"
  {
    assert Render(t[2..], vars) == "test";
    assert Render(t[1..], vars) == ".test";
  }

  /** A `name` tag `{-1}.{-2}` over `test.foo` names the metric `foo.test`. */
  lemma FromEndName(ns: Namespace, tags: Dict)
    requires ns == [Static("test"), Static("foo")] && tags == [Entry("name", "{-1}.{-2}")]
    ensures Get(CreateAtlasTags(ns, tags), "name") == Some("foo.test")
  {
    var t := [Hole("-1"), Text("."), Hole("-2")];
    TestFoo(ns);
    TestFooLast(ns);
    TestFooFirst(ns);
    FromEndTemplate(t);
    FromEndRender(t, NamespaceVars(ns));
    CreateAtlasTagsRenders(ns, tags, "name", t);
  }

  /** ... and no other tag appears. */
  lemma CreateAtlasTagsFromEnd(ns: Namespace, tags: Dict)
    requires ns == [Static("test"), Static("foo")] && tags == [Entry("name", "{-1}.{-2}")]
    ensures Keys(CreateAtlasTags(ns, tags)) == {"name"}
    ensures Get(CreateAtlasTags(ns, tags), "name") == Some("foo.test")
  {
    FromEndName(ns, tags);
    OneTagKeys(ns, tags, "name", "{-1}.{-2}");
  }

  /** With a single tag `key`, the Atlas tags are `name` plus `key` unless
      it is ignored. */
  lemma OneTagKeys(ns: Namespace, tags: Dict, key: string, pattern: string)
    requires tags == [Entry(key, pattern)]
    requires key == "name" || key in IgnoredTags
    ensures Keys(CreateAtlasTags(ns, tags)) == {"name"}
  {
    assert Keys(tags) == {key};
  }

  /** An explicit `name` tag replaces the dotted namespace, over any
      namespace. */
  lemma CreateAtlasTagsNameOverride(ns: Namespace, tags: Dict)
    requires tags == [Entry("name", "custom.name")]
    ensures Keys(CreateAtlasTags(ns, tags)) == {"name"}
    ensures Get(CreateAtlasTags(ns, tags), "name") == Some("custom.name")
  {
    CustomName("custom.name");
    NameTagOverrides(ns, tags, "custom.name");
  }

  /** The name the tests choose holds no brace. */
  lemma CustomName(v: string)
    requires v == "custom.name"
    ensures '{' !in v
  {
  }

  /** A single `name` tag without braces becomes the Atlas name. */
  lemma NameTagOverrides(ns: Namespace, tags: Dict, v: string)
    requires tags == [Entry("name", v)] && '{' !in v
    ensures Keys(CreateAtlasTags(ns, tags)) == {"name"}
    ensures Get(CreateAtlasTags(ns, tags), "name") == Some(v)
  {
    OneTagKeys(ns, tags, "name", v);
    assert Get(tags, "name") == Some(v);
    CreateAtlasTagsCopiesPlainTag(ns, tags, "name");
  }

  /** Without tags the only Atlas tag is `name = test.foo`. */
  lemma CreateAtlasTagsNoTags(ns: Namespace, tags: Dict)
    requires ns == [Static("test"), Static("foo")] && tags == []
    ensures Keys(CreateAtlasTags(ns, tags)) == {"name"}
    ensures Get(CreateAtlasTags(ns, tags), "name") == Some("test.foo")
  {
    TestFoo(ns);
    TestFooName(ns);
    CreateAtlasTagsDefaultName(ns, tags);
  }

  /** A `unit` or `plugin_running_on` tag is dropped and the name defaults
      to `test.foo`. */
  lemma CreateAtlasTagsIgnoresTag(ns: Namespace, tags: Dict, key: string)
    requires key == "unit" || key == "plugin_running_on"
    requires ns == [Static("test"), Static("foo")] && tags == [Entry(key, "foo")]
    ensures Keys(CreateAtlasTags(ns, tags)) == {"name"}
    ensures Get(CreateAtlasTags(ns, tags), "name") == Some("test.foo")
  {
    TestFoo(ns);
    TestFooName(ns);
    CreateAtlasTagsDefaultName(ns, tags);
    OneTagKeys(ns, tags, key, "foo");
  }

  /** In `test.<host>.foo` the dynamic element's name resolves to its value. */
  lemma HostVar(ns: Namespace)
    requires ns == [Static("test"), Dynamic("host", "i-12345"), Static("foo")]
    ensures Get(NamespaceVars(ns), "host") == Some("i-12345")
  {
    forall l | 1 < l < |ns|
      ensures "host" !in WrittenKeys(ns, l)
    {
      NumberLooksPositional(l);
      NumberLooksPositional(l - |ns|);
    }
    DynamicVar(ns, 1);
  }

  /** The static elements of `test.<host>.foo`, joined. */
  lemma HostStaticValues(ns: Namespace)
    requires ns == [Static("test"), Dynamic("host", "i-12345"), Static("foo")]
    ensures Join(StaticValues(ns), ".") == "test.foo"
  {
    assert ns[..2][..1] == ns[..1] && ns[..1][..0] == [];
    assert StaticValues(ns[..1]) == ["test"];
    assert StaticValues(ns[..2]) == ["test"];
    var st := StaticValues(ns);
    assert st == ["test", "foo"];
    assert Join(st[1..], ".") == "foo";
  }

  /** `{namespace_static}` skips the dynamic element. */
  lemma HostStatic(ns: Namespace)
    requires ns == [Static("test"), Dynamic("host", "i-12345"), Static("foo")]
    ensures Get(NamespaceVars(ns), "namespace_static") == Some("test.foo")
  {
    HostStaticValues(ns);
    NamespaceVarsGet(ns, "namespace_static");
  }

  /** The dotted name of `test.<host>.foo`. */
  lemma HostDottedName(ns: Namespace)
    requires ns == [Static("test"), Dynamic("host", "i-12345"), Static("foo")]
    ensures DottedName(ns) == "test.i-12345.foo"
  {
    var vs := Values(ns);
    assert vs == ["test", "i-12345", "foo"];
    assert Join(vs[2..], ".") == "foo";
    assert Join(vs[1..], ".") == "i-12345.foo";
  }

  /** `{namespace}` includes the dynamic element's value. */
  lemma HostDotted(ns: Namespace)
    requires ns == [Static("test"), Dynamic("host", "i-12345"), Static("foo")]
    ensures Get(NamespaceVars(ns), "namespace") == Some("test.i-12345.foo")
  {
    HostDottedName(ns);
    NamespaceVarsDottedName(ns);
  }

  // ---------------------------------------------------------------------
  // convertToBaseUnit and toAtlasMetric
  // ---------------------------------------------------------------------

  /** An unknown unit, milliseconds and kibi. */
  lemma ConvertCases()
    ensures ConvertToBaseUnit("none", Finite(1e10)) == Finite(1e10)
    ensures ConvertToBaseUnit("ms", Finite(1e10)) == Finite(1e7)
    ensures ConvertToBaseUnit("Ki", Finite(1.0)) == Finite(1024.0)
  {
  }

  /** The scale factor of `Ki`. */
  lemma KibiFactor()
    ensures ScaleFactor("Ki") == 1024.0
  {
    assert "Ki" !in TimeUnits && "Ki" !in DecimalPrefixes;
    assert Rank(BinaryPrefixes, "Ki") == 1;
  }

  /** A string value is not converted. */
  lemma ToAtlasMetricNonNumeric(m: PluginMetric)
    requires m.data == Other("99")
    ensures ToAtlasMetric(m) == None
  {
  }

  /** The integer 99 in `Ki` becomes 99 * 1024, the `unit` tag is dropped
      and the name is the namespace. */
  lemma ToAtlasMetricKibi(m: PluginMetric)
    requires m.namespace == [Static("foo")] && m.tags == [Entry("unit", "Ki")] && m.data == Signed(99)
    ensures ToAtlasMetric(m).Some?
    ensures ToAtlasMetric(m).value.value == Finite(99.0 * 1024.0)
    ensures Keys(ToAtlasMetric(m).value.tags) == {"name"}
    ensures ToAtlasMetric(m).value.timestamp == Timestamp(m.unixSeconds)
    ensures Get(ToAtlasMetric(m).value.tags, "name") == Some("foo")
  {
    assert Keys(m.tags) == {"unit"} && Get(m.tags, "unit") == Some("Ki");
    assert Values(m.namespace) == ["foo"];
    assert DottedName(m.namespace) == "foo";
    CreateAtlasTagsDefaultName(m.namespace, m.tags);
    KibiFactor();
    ToAtlasMetricFields(m);
  }

  // ---------------------------------------------------------------------
  // The client
  // ---------------------------------------------------------------------

  /** min on the test's three pairs. */
  lemma MinCases()
    ensures Client.Min(1, 2) == 1 && Client.Min(2, 1) == 1 && Client.Min(1, -2) == -2
  {
  }

  /** Every character outside the allowed set becomes `_`. */
  lemma SanitizeCase()
    ensures Client.SanitizeString("/foo/${bar}/%*!@") == "_foo___bar______"
  {
  }

  /** The sanitised map of the tests: `{"a b": "/"}` becomes `{"a_b": "_"}`,
      and the empty map stays empty. */
  lemma SanitizeMapCase(tags: Dict)
    requires tags == [Entry("a b", "/")]
    ensures Client.SanitizeMap(tags) == [Entry("a_b", "_")]
    ensures Client.SanitizeMap([]) == []
  {
    assert Client.SanitizeString("a b") == "a_b";
    assert Client.SanitizeString("/") == "_";
  }

  /** Sanitising a two-tag map whose keys stay apart. */
  lemma SanitizeTwoTags(tags: Dict, a: Entry, b: Entry)
    requires tags == [a, b] && Client.SanitizeString(a.key) != Client.SanitizeString(b.key)
    ensures Keys(Client.SanitizeMap(tags)) == {Client.SanitizeString(a.key), Client.SanitizeString(b.key)}
    ensures Get(Client.SanitizeMap(tags), Client.SanitizeString(a.key)) == Some(Client.SanitizeString(a.value))
    ensures Get(Client.SanitizeMap(tags), Client.SanitizeString(b.key)) == Some(Client.SanitizeString(b.value))
  {
    assert tags[..1] == [a];
    assert [a][..0] == [];
    var first := Client.SanitizeMap([a]);
    assert first == Put(Client.SanitizeMap([]), Client.SanitizeString(a.key), Client.SanitizeString(a.value));
    assert Keys(first) == {Client.SanitizeString(a.key)};
    assert Client.SanitizeMap(tags) == Put(first, Client.SanitizeString(b.key), Client.SanitizeString(b.value));
  }

  /** The client of the tests: the common tag with spaces is cleaned, the
      other is kept. */
  lemma NewAtlasClientCase(tags: Dict)
    requires tags == [Entry("nf.app", "foo"), Entry("bar", "value with spaces")]
    ensures Keys(Client.NewAtlasClient("/api/v1/publish", tags).commonTags) == {"nf.app", "bar"}
    ensures Get(Client.NewAtlasClient("/api/v1/publish", tags).commonTags, "nf.app") == Some("foo")
    ensures Get(Client.NewAtlasClient("/api/v1/publish", tags).commonTags, "bar") == Some("value_with_spaces")
  {
    ClientTagStrings();
    SanitizeTwoTags(tags, tags[0], tags[1]);
  }

  /** The strings of that test, sanitised one by one. */
  lemma ClientTagStrings()
    ensures Client.SanitizeString("nf.app") == "nf.app"
    ensures Client.SanitizeString("foo") == "foo"
    ensures Client.SanitizeString("bar") == "bar"
    ensures Client.SanitizeString("value with spaces") == "value_with_spaces"
  {
    SpacesCleaned("value with spaces");
  }

  /** The value with spaces: each space becomes `_`. */
  lemma SpacesCleaned(s: string)
    requires s == "value with spaces"
    ensures Client.SanitizeString(s) == "value_with_spaces"
  {
    var r := Client.SanitizeString(s);
    assert |r| == 17;
    forall i | 0 <= i < 17
      ensures r[i] == "value_with_spaces"[i]
    {
      assert s[i] == ' ' <==> i == 5 || i == 10;
    }
  }

  /** An empty batch and a batch of only NaN and infinities both post an
      envelope with no datapoints. */
  lemma SendToAtlasNothingFinite(client: Client.AtlasClient, ms: seq<Client.Metric>)
    requires forall i :: 0 <= i < |ms| ==> !IsFinite(ms[i].value)
    ensures Client.SendToAtlas(client, ms) == Client.MetricBatch(client.commonTags, [])
  {
    Seqs.FilterNothing(ms, Client.HasFiniteValue);
  }

  /** One finite datapoint `bar = 42` at time 0 is posted as it is, under
      the client's common tags. */
  lemma SendToAtlasOneMetric(client: Client.AtlasClient, ms: seq<Client.Metric>)
    requires ms == [Client.Metric([Entry("name", "bar")], 0, Finite(42.0))]
    ensures Client.SendToAtlas(client, ms) == Client.MetricBatch(client.commonTags, ms)
  {
    Client.FilterNumbersSingleton(ms[0]);
  }
}

=== FILE: floats.dfy ===
/** Go's `float64`, without rounding: a finite value is an exact real, and
    the three special values NaN, +Inf and -Inf are kept apart. */
module Floats {

  datatype Float = Finite(r: real) | NaN | PosInf | NegInf

  /** Neither `math.IsNaN` nor `math.IsInf(·, 0)`. */
  predicate IsFinite(x: Float)
  {
    x.Finite?
  }

  /** `x * c` for a positive constant `c`: NaN and the infinities absorb the
      product. */
  function Times(x: Float, c: real): (y: Float)
    requires c > 0.0
    ensures IsFinite(y) <==> IsFinite(x)
    ensures y.NaN? <==> x.NaN?
  {
    match x
    case Finite(r) => Finite(r * c)
    case _ => x
  }

  /** `x / c` for a positive constant `c`. */
  function Over(x: Float, c: real): (y: Float)
    requires c > 0.0
    ensures y == Times(x, 1.0 / c)
  {
    match x
    case Finite(r) => Finite(r / c)
    case _ => x
  }
}

=== FILE: options.dfy ===
/** Optional values and fallible results, used where the Go code returns a
    nil pointer or an (value, error) pair. */
module Options {

  /** A value that may be absent (a Go nil pointer or a missing map entry). */
  datatype Option<+T> = None | Some(value: T)

  /** A value or an error message (a Go `(T, error)` return). */
  datatype Result<+T> = Ok(value: T) | Err(message: string)
}

=== FILE: seqs.dfy ===
/** Order-preserving filters and flattening, the sequence shapes shared by
    the normaliser and the delivery client. */
module Seqs {
  import opened Options

  /** The elements of `s` that satisfy `p`, in their original order
      (a Go loop that appends the elements it keeps). */
  function Filter<T>(s: seq<T>, p: T -> bool): (r: seq<T>)
    ensures |r| <= |s|
    ensures forall i :: 0 <= i < |r| ==> p(r[i])
    ensures (forall i :: 0 <= i < |s| ==> p(s[i])) ==> r == s
    decreases |s|
  {
    if s == [] then []
    else
      var init, last := s[..|s| - 1], s[|s| - 1];
      assert s == init + [last];
      Filter(init, p) + (if p(last) then [last] else [])
  }

  /** Nothing is kept when no element passes. */
  lemma {:induction false} FilterNothing<T>(s: seq<T>, p: T -> bool)
    requires forall i :: 0 <= i < |s| ==> !p(s[i])
    ensures Filter(s, p) == []
    decreases |s|
  {
    if s != [] {
      FilterNothing(s[..|s| - 1], p);
    }
  }

  /** An element is kept exactly when it occurs in the input and passes. */
  lemma {:induction false} FilterMembership<T>(s: seq<T>, p: T -> bool, x: T)
    ensures x in Filter(s, p) <==> x in s && p(x)
    decreases |s|
  {
    if s != [] {
      var init, last := s[..|s| - 1], s[|s| - 1];
      assert s == init + [last];
      FilterMembership(init, p, x);
    }
  }

  /** Filtering commutes with concatenation: the relative order of the kept
      elements is the input order. */
  lemma {:induction false} FilterConcat<T>(a: seq<T>, b: seq<T>, p: T -> bool)
    ensures Filter(a + b, p) == Filter(a, p) + Filter(b, p)
    decreases |b|
  {
    if b == [] {
      assert a + b == a;
    } else {
      var init, last := b[..|b| - 1], b[|b| - 1];
      assert (a + b)[..|a + b| - 1] == a + init;
      FilterConcat(a, init, p);
    }
  }

  /** The results of `f` on the elements of `s` where it gives one, in order
      (a Go loop that appends only non-nil results). */
  function FilterMap<T, U>(s: seq<T>, f: T -> Option<U>): (r: seq<U>)
    ensures |r| <= |s|
    ensures (forall i :: 0 <= i < |s| ==> f(s[i]).Some?) ==> |r| == |s|
    decreases |s|
  {
    if s == [] then []
    else
      var init, last := s[..|s| - 1], s[|s| - 1];
      FilterMap(init, f) + (match f(last) case Some(y) => [y] case None => [])
  }

  /** Every output is the result of `f` on some input, and every result of
      `f` on an input is an output. */
  lemma {:induction false} FilterMapMembership<T, U>(s: seq<T>, f: T -> Option<U>, y: U)
    ensures y in FilterMap(s, f) <==> exists i :: 0 <= i < |s| && f(s[i]) == Some(y)
    decreases |s|
  {
    if s != [] {
      var init, last := s[..|s| - 1], s[|s| - 1];
      FilterMapMembership(init, f, y);
      if exists i :: 0 <= i < |s| && f(s[i]) == Some(y) {
        var i :| 0 <= i < |s| && f(s[i]) == Some(y);
        if i < |init| {
          assert f(init[i]) == Some(y);
        }
      }
      if exists i :: 0 <= i < |init| && f(init[i]) == Some(y) {
        var i :| 0 <= i < |init| && f(init[i]) == Some(y);
        assert f(s[i]) == Some(y);
      }
    }
  }

  /** Filter-mapping commutes with concatenation. */
  lemma {:induction false} FilterMapConcat<T, U>(a: seq<T>, b: seq<T>, f: T -> Option<U>)
    ensures FilterMap(a + b, f) == FilterMap(a, f) + FilterMap(b, f)
    decreases |b|
  {
    if b == [] {
      assert a + b == a;
    } else {
      var init := b[..|b| - 1];
      assert (a + b)[..|a + b| - 1] == a + init;
      assert (a + b)[|a + b| - 1] == b[|b| - 1];
      FilterMapConcat(a, init, f);
    }
  }

  /** Predicates that agree on the elements filter alike. */
  lemma {:induction false} FilterCongruent<T>(s: seq<T>, p: T -> bool, q: T -> bool)
    requires forall i :: 0 <= i < |s| ==> p(s[i]) == q(s[i])
    ensures Filter(s, p) == Filter(s, q)
    decreases |s|
  {
    if s != [] {
      var init := s[..|s| - 1];
      assert forall i :: 0 <= i < |init| ==> init[i] == s[i];
      FilterCongruent(init, p, q);
    }
  }

  /** Filter-mapping keeps one output per input on which `f` gives a result:
      as many as filtering by "has a result" keeps. */
  lemma {:induction false} FilterMapLength<T, U>(s: seq<T>, f: T -> Option<U>)
    ensures |FilterMap(s, f)| == |Filter(s, x => f(x).Some?)|
    decreases |s|
  {
    if s != [] {
      var init := s[..|s| - 1];
      assert s == init + [s[|s| - 1]];
      FilterMapLength(init, f);
    }
  }

  /** The concatenation of a sequence of sequences. */
  function Flatten<T>(ss: seq<seq<T>>): (r: seq<T>)
    decreases |ss|
  {
    if ss == [] then [] else ss[0] + Flatten(ss[1..])
  }

  /** Flattening one more piece appends it. */
  lemma {:induction false} FlattenAppend<T>(ss: seq<seq<T>>, t: seq<T>)
    ensures Flatten(ss + [t]) == Flatten(ss) + t
    decreases |ss|
  {
    if ss != [] {
      assert (ss + [t])[1..] == ss[1..] + [t];
      FlattenAppend(ss[1..], t);
    }
  }
}

=== FILE: text.dfy ===
/** The pieces of Go's `strings` and `fmt` packages that the publisher uses:
    `strings.Join`, `strings.Replace(s, pat, rep, -1)` and `fmt.Sprintf("%d", i)`. */
module Text {

  /** The total length of some strings. */
  function TotalLength(parts: seq<string>): nat
  {
    if |parts| == 0 then 0 else |parts[0]| + TotalLength(parts[1..])
  }

  /** `strings.Join`: the parts with `sep` between consecutive ones, so the
      first part opens it and one separator stands between each pair. */
  function Join(parts: seq<string>, sep: string): (r: string)
    ensures |parts| > 0 ==> |r| == TotalLength(parts) + (|parts| - 1) * |sep|
    ensures |parts| > 0 ==> parts[0] <= r
    ensures |parts| == 0 ==> r == ""
  {
    if |parts| == 0 then ""
    else if |parts| == 1 then parts[0]
    else parts[0] + sep + Join(parts[1..], sep)
  }

  /** A character absent from every part and from the separator is absent
      from the joined string. */
  lemma {:induction false} JoinAvoids(parts: seq<string>, sep: string, c: char)
    requires c !in sep
    requires forall i :: 0 <= i < |parts| ==> c !in parts[i]
    ensures c !in Join(parts, sep)
  {
    if |parts| > 1 {
      JoinAvoids(parts[1..], sep, c);
    }
  }

  /** True when `pat` occurs somewhere in `s`. */
  predicate Occurs(pat: string, s: string)
    requires |pat| > 0
    decreases |s|
  {
    |s| >= |pat| && (s[..|pat|] == pat || Occurs(pat, s[1..]))
  }

  /** A pattern whose first character is absent from `s` occurs nowhere in it. */
  lemma {:induction false} OccursNeedsHead(pat: string, s: string)
    requires |pat| > 0 && pat[0] !in s
    ensures !Occurs(pat, s)
    decreases |s|
  {
    if |s| >= |pat| {
      assert s[..|pat|][0] == s[0];
      assert pat[0] !in s[1..] by {
        forall i | 0 <= i < |s[1..]|
          ensures s[1..][i] != pat[0]
        {
          assert s[1..][i] == s[i + 1];
        }
      }
      OccursNeedsHead(pat, s[1..]);
    }
  }

  /** `strings.Replace(s, pat, rep, -1)` for a non-empty `pat`: scanning left
      to right, every non-overlapping occurrence of `pat` is replaced by `rep`;
      the replacement text itself is never rescanned. */
  function ReplaceAll(s: string, pat: string, rep: string): (r: string)
    requires |pat| > 0
    ensures !Occurs(pat, s) ==> r == s
    decreases |s|
  {
    if |s| < |pat| then s
    else if s[..|pat|] == pat then rep + ReplaceAll(s[|pat|..], pat, rep)
    else [s[0]] + ReplaceAll(s[1..], pat, rep)
  }

  /** Text that cannot start a match is copied through unchanged: if the first
      character of `pat` does not occur in `a`, replacing in `a + x` copies `a`
      and continues with `x`. */
  lemma {:induction false} ReplaceAllSkips(a: string, x: string, pat: string, rep: string)
    requires |pat| > 0
    requires pat[0] !in a
    ensures ReplaceAll(a + x, pat, rep) == a + ReplaceAll(x, pat, rep)
    decreases |a|
  {
    if |a| > 0 {
      var s := a + x;
      assert s[0] == a[0];
      if |s| < |pat| {
        ReplaceAllShort(x, pat, rep);
      } else {
        assert s[..|pat|] != pat;
        assert s[1..] == a[1..] + x;
        ReplaceAllSkips(a[1..], x, pat, rep);
      }
    } else {
      assert a + x == x;
    }
  }

  /** Strings shorter than the pattern are left alone. */
  lemma ReplaceAllShort(s: string, pat: string, rep: string)
    requires |pat| > 0 && |s| < |pat|
    ensures ReplaceAll(s, pat, rep) == s
  {
  }

  /** Without a match at the start, the first character is copied and
      scanning resumes after it. */
  lemma ReplaceAllMissesHead(s: string, pat: string, rep: string)
    requires |pat| > 0 && |s| >= |pat| && s[..|pat|] != pat
    ensures ReplaceAll(s, pat, rep) == [s[0]] + ReplaceAll(s[1..], pat, rep)
  {
  }

  /** An occurrence of `pat` at the very start is replaced and scanning
      resumes after it. */
  lemma ReplaceAllMatchesHead(x: string, pat: string, rep: string)
    requires |pat| > 0
    ensures ReplaceAll(pat + x, pat, rep) == rep + ReplaceAll(x, pat, rep)
  {
    var s := pat + x;
    assert s[..|pat|] == pat;
    assert s[|pat|..] == x;
  }

  /** The decimal digit for `d`. */
  function DigitChar(d: nat): (c: char)
    requires d < 10
    ensures '0' <= c <= '9'
  {
    ('0' as int + d) as char
  }

  /** `fmt.Sprintf("%d", n)` for a natural number. */
  function NatToString(n: nat): (r: string)
    ensures |r| >= 1
    ensures forall i :: 0 <= i < |r| ==> '0' <= r[i] <= '9'
    ensures n >= 10 ==> |r| >= 2
  {
    if n < 10 then [DigitChar(n)]
    else NatToString(n / 10) + [DigitChar(n % 10)]
  }

  /** `fmt.Sprintf("%d", i)`: a minus sign for negative numbers. */
  function IntToString(i: int): (r: string)
    ensures |r| >= 1
    ensures r[0] == '-' <==> i < 0
    ensures forall j :: 0 <= j < |r| ==> r[j] == '-' || '0' <= r[j] <= '9'
  {
    if i < 0 then "-" + NatToString(-i) else NatToString(i)
  }

  /** Distinct numbers print differently. */
  lemma {:induction false} NatToStringInjective(a: nat, b: nat)
    requires NatToString(a) == NatToString(b)
    ensures a == b
    decreases a
  {
    var sa, sb := NatToString(a), NatToString(b);
    if a < 10 && b < 10 {
      assert DigitChar(a) == sa[0] == sb[0] == DigitChar(b);
    } else if a >= 10 && b >= 10 {
      assert sa[..|sa| - 1] == NatToString(a / 10);
      assert sb[..|sb| - 1] == NatToString(b / 10);
      assert DigitChar(a % 10) == sa[|sa| - 1] == sb[|sb| - 1] == DigitChar(b % 10);
      NatToStringInjective(a / 10, b / 10);
    }
  }

  /** `fmt.Sprintf("%d", ·)` is injective on all integers. */
  lemma IntToStringInjective(a: int, b: int)
    requires IntToString(a) == IntToString(b)
    ensures a == b
  {
    var s := IntToString(a);
    if a < 0 {
      assert s[1..] == NatToString(-a) == NatToString(-b);
      NatToStringInjective(-a, -b);
    } else {
      NatToStringInjective(a, b);
    }
  }
}
